=== FILE: README.md ===
# vaporTIL in Dafny

A model of the core of vaporTIL ("Today I Learned"), a Vapor web application
in which users record acronyms with their meanings and tag them with
categories. It covers:

- the data model: users with a public projection, acronyms owned by users,
  categories, and the acronym–category pivot table;
- the database as an immutable value, holding one sequence of rows per table
  and one id counter that stands for id generation. The schema constraints
  are unique usernames, the acronym-to-user foreign key, and the
  pivot-to-acronym foreign key with cascading delete. Every mutation is proved to keep them;
- the JSON API under `/api/acronyms`, `/api/users` and `/api/categories`.
  This covers bearer-token and HTTP-basic authentication and the login that
  issues a token;
- the browser routes:
  - session login and logout;
  - the registration form and its validation rules;
  - the single-use CSRF token of the create-acronym form;
  - the tag reconciliation of the edit form;
  - the delete route.

Handlers are pure functions, with one exception. A function takes the
database (and, for web routes, the browser session) and returns the
database after the request together with the answer: a value, or an HTTP
status for the error paths. The edit handler is a method whose two loops
apply the reconciliation plan. BCrypt is a function parameter (`Hasher`), and
so are the random strings for tokens.

Modules follow the source files: `UserModel`, `AcronymModel`, `CategoryModel`,
`PivotModel`, `TokenModel` (models); `Database` (tables, constraints, queries,
mutations); `Authentication` (token, password and session lookups);
`Ordering` (the sort by `short`); `AcronymsController`, `UsersController`,
`CategoriesController`, `WebsiteController` (handlers); `Registration`
(validation rules); `CategoryReconciliation` (tagging by name). `Common` and
`Seqs` hold the shared option/result types and the two query shapes `first`
and `filter`.

Notes on the code as it stands:

- `getFirstHandler` (AcronymsController.swift:85-87) is not registered as a
  route. It is modelled as written.
- `getAcronymsHandler` is registered on the same path as `getUserHandler`
  (UsersController.swift:12-13). Which of the two the router keeps is
  framework behaviour outside these sources, so both handlers are modelled.
- The edit form's detach step (WebsiteController.swift:146-153) detaches only
  the first attached category with a dropped name. `WebsiteController.EditAcronymPost`
  models it as written; `WebsiteController.EditAcronymPostIntended` is the
  handler with every such category detached (see "## Findings").
- The create-acronym post runs behind `RedirectMiddleware`. So a request
  without a session user is redirected before the CSRF slot is read or
  cleared.

## Model

| member | source | states |
|---|---|---|
| UserModel.NewUser | Sources/App/Models/User.swift:13-17 | a new user is unsaved (no id) and carries exactly the given name, username and password |
| UserModel.ConvertToPublic | Sources/App/Models/User.swift:57-59 | the public view has the user's id, name and username |
| UserModel.PublicForgetsOnlyPassword | Sources/App/Models/User.swift:19-29 | two users have the same public view exactly when they differ at most in their password |
| UserModel.AdminUser | Sources/App/Models/User.swift:84-91 | the seed account is named "Admin" with username "Admin", and its stored digest verifies the password "password" |
| AcronymModel.NewAcronym | Sources/App/Models/Acronym.swift:19-23 | a new acronym is unsaved and has the given short, long and owner id |
| CategoryModel.NewCategory | Sources/App/Controllers/CategoriesController.swift:19-20 | a new category is unsaved (no id) and carries exactly the given name, as the create handler and the find-or-create step save it |
| PivotModel.NewPivot | Sources/App/Models/AcronymCategoryPivot.swift:16-19 | a pivot can be built exactly when both models are saved; it links their ids; otherwise `requireID` fails with status 500 |
| TokenModel.GenerateToken | Sources/App/Controllers/UsersController.swift:50 | a token carries the random string and the user's id; an unsaved user gets none |
| Database.EmptyIsValid | Sources/App/Models/Acronym.swift:58-71 | the freshly migrated database satisfies every schema constraint |
| Database.UserById | Sources/App/Controllers/UsersController.swift:36 | the lookup finds a stored user with that id, and finds none exactly when no stored user has it |
| Database.UserByName | Sources/App/Models/User.swift:72 | the lookup by the username key finds a user with that username, and finds none exactly when none has it |
| Database.AcronymById | Sources/App/Controllers/AcronymsController.swift:56 | the lookup finds a stored acronym with that id, and finds none exactly when none has it |
| Database.CategoryById | Sources/App/Controllers/CategoriesController.swift:28 | the lookup finds a stored category with that id, and finds none exactly when none has it |
| Database.CategoryByName | Sources/App/Controllers/WebsiteController.swift:104 | the lookup by name finds a stored category with that name, and finds none exactly when none has it |
| Database.UserByIdFindsRow | Sources/App/Controllers/UsersController.swift:35-37 | on keyed users the lookup by a stored user's id returns that user |
| Database.AcronymByIdFindsRow | Sources/App/Controllers/AcronymsController.swift:54-57 | on keyed acronyms the lookup by a stored acronym's id returns that acronym |
| Database.CategoryByIdFindsRow | Sources/App/Controllers/CategoriesController.swift:27-29 | on keyed categories the lookup by a stored category's id returns that category |
| Database.ParentOf | Sources/App/Models/Acronym.swift:80-83 | the parent is a stored user whose id is the acronym's `userID`, and is absent exactly when no such user exists |
| Database.ChildrenOf | Sources/App/Models/User.swift:49-53 | the children are exactly the stored acronyms whose `userID` is the user's id |
| Database.CategoriesOf | Sources/App/Models/Acronym.swift:88-92 | the siblings are exactly the stored categories that some pivot row links to the acronym |
| Database.AcronymsOf | Sources/App/Controllers/CategoriesController.swift:31-35 | the siblings are exactly the stored acronyms that some pivot row links to the category |
| Database.SiblingsSymmetric | Sources/App/Models/Acronym.swift:88-92 | an acronym is listed for a category exactly when the category is listed for the acronym |
| Database.ParentChildrenAgree | Sources/App/Models/User.swift:49-53 | an acronym is among a user's children exactly when that user is its parent |
| Database.ParentExists | Sources/App/Models/Acronym.swift:66 | on a valid database every acronym's parent exists |
| Database.InsertUser | Sources/App/Controllers/UsersController.swift:28 | saving a new user gives it the next id and keeps its other fields; the row is appended and no other table changes |
| Database.InsertAcronym | Sources/App/Controllers/AcronymsController.swift:50 | saving a new acronym gives it the next id and keeps its other fields; the row is appended and no other table changes |
| Database.InsertCategory | Sources/App/Controllers/CategoriesController.swift:20 | saving a new category gives it the next id and keeps its name; the row is appended and no other table changes |
| Database.InsertPivot | Sources/App/Controllers/AcronymsController.swift:101 | saving a pivot appends one row under the next id with the same two ends; no other table changes |
| Database.UpdateAcronym | Sources/App/Controllers/AcronymsController.swift:66 | saving a saved acronym overwrites the rows with its id in place; no other table and no other row changes |
| Database.DeleteAcronym | Sources/App/Models/AcronymCategoryPivot.swift:33 | deleting an acronym removes exactly its row and exactly the pivot rows that reference it |
| Database.DeleteCategory | Sources/App/Models/AcronymCategoryPivot.swift:22-36 | deleting a category removes exactly its row and changes nothing else: the pivot table is left untouched, since there is no cascade on `categoryID` |
| Database.Attach | Sources/App/Controllers/AcronymsController.swift:101 | attach appends exactly one pivot row, from the acronym to the category, so exactly that edge is added; nothing else changes; an unsaved model fails with status 500 |
| Database.Detach | Sources/App/Controllers/AcronymsController.swift:114 | detach removes exactly the edge between the two ids and changes nothing else |
| Database.DetachIds | Sources/App/Controllers/AcronymsController.swift:114 | exactly the pivot rows with both given ends are removed, and nothing else changes |
| Database.SeedAdmin | Sources/App/Models/User.swift:84-93 | the seed appends one user under the next id, named "Admin" with username "Admin", whose digest is the hash of "password"; no other table changes |
| Database.InsertUserKeepsValid | Sources/App/Models/User.swift:40 | saving a user whose username is not taken keeps every constraint |
| Database.SeedAdminKeepsValid | Sources/App/Models/User.swift:84-93 | the seed keeps every constraint on a database without an "Admin" user |
| Database.InsertAcronymKeepsValid | Sources/App/Models/Acronym.swift:66 | saving an acronym whose owner exists keeps every constraint |
| Database.InsertCategoryKeepsValid | Sources/App/Controllers/CategoriesController.swift:19-21 | saving a category keeps every constraint |
| Database.InsertPivotKeepsValid | Sources/App/Models/AcronymCategoryPivot.swift:33 | saving a pivot row that references a stored acronym keeps every constraint |
| Database.AttachKeepsValid | Sources/App/Models/AcronymCategoryPivot.swift:16-19 | attaching a stored acronym to a saved category succeeds and keeps every constraint |
| Database.DetachIdsKeepsValid | Sources/App/Controllers/AcronymsController.swift:114 | removing pivot rows keeps every constraint |
| Database.UpdateAcronymKeepsValid | Sources/App/Controllers/AcronymsController.swift:59-67 | overwriting an acronym under its own id, with an owner that exists, keeps every constraint |
| Database.DeleteAcronymKeepsValid | Sources/App/Models/AcronymCategoryPivot.swift:33 | thanks to the cascade, deleting an acronym keeps the pivot-to-acronym constraint and all the others |
| Database.DeleteCategoryKeepsValid | Sources/App/Models/AcronymCategoryPivot.swift:33 | with no foreign key on `categoryID`, deleting a category keeps every constraint |
| Seqs.First | Sources/App/Controllers/AcronymsController.swift:86 | `first()` returns nothing exactly when no row matches; otherwise it returns the earliest matching row |
| Seqs.Filter | Sources/App/Controllers/AcronymsController.swift:79-82 | a filtered query returns exactly the matching rows |
| Ordering.TextLeTotal | Sources/App/Controllers/AcronymsController.swift:90 | any two strings are comparable |
| Ordering.TextLeTransitive | Sources/App/Controllers/AcronymsController.swift:90 | the text order is transitive |
| Ordering.TextLeAntisymmetric | Sources/App/Controllers/AcronymsController.swift:90 | strings that sort at or before each other are equal |
| Ordering.Insert | Sources/App/Controllers/AcronymsController.swift:90 | inserting into a descending list yields a descending list holding the old elements plus the new one |
| Ordering.SortByShortDescending | Sources/App/Controllers/AcronymsController.swift:90 | the sort is a permutation of its input, ordered descending by `short` |
| Authentication.PasswordUser | Sources/App/Controllers/WebsiteController.swift:176 | authentication returns a stored user with that username whose digest verifies the password; with unique usernames it succeeds exactly when such a user exists |
| Authentication.TokenUser | Sources/App/Controllers/AcronymsController.swift:27-29 | token authentication yields only a stored user that owns a stored token with the bearer value; no bearer, or a value no stored token carries, authenticates nobody; a value some stored token carries, when every token with it belongs to a stored user, authenticates someone |
| Authentication.SessionUser | Sources/App/Controllers/WebsiteController.swift:8 | the session authenticates exactly when it holds the id of a stored user, and yields that user |
| Authentication.FreshTokenAuthenticatesOwner | Sources/App/Models/User.swift:80-82 | a newly saved token with a fresh value authenticates its owner |
| AcronymsController.Get | Sources/App/Controllers/AcronymsController.swift:54-57 | returns the stored acronym with the id, or NotFound exactly when there is none |
| AcronymsController.GetAll | Sources/App/Controllers/AcronymsController.swift:38-40 | every stored acronym, one per row, in table order |
| AcronymsController.Search | Sources/App/Controllers/AcronymsController.swift:74-83 | without a term the answer is BadRequest; otherwise exactly the acronyms whose short or long equals the term |
| AcronymsController.GetFirst | Sources/App/Controllers/AcronymsController.swift:85-87 | returns a stored acronym, or NotFound exactly when the table is empty |
| AcronymsController.Sorted | Sources/App/Controllers/AcronymsController.swift:89-91 | returns every acronym exactly once, descending by `short` |
| AcronymsController.GetUser | Sources/App/Controllers/AcronymsController.swift:93-97 | returns the public view of the owner of the addressed acronym; NotFound exactly when the acronym is missing; when every acronym has its owner, a present acronym always gets an answer |
| AcronymsController.Create | Sources/App/Controllers/AcronymsController.swift:43-52 | without token authentication the answer is Unauthorized and nothing changes; otherwise it appends one acronym with the data, owned by the authenticated user |
| AcronymsController.Update | Sources/App/Controllers/AcronymsController.swift:59-68 | Unauthorized or NotFound leave the store; otherwise short, long and owner of the addressed row are overwritten, the owner being the authenticated user, and no other row changes |
| AcronymsController.Delete | Sources/App/Controllers/AcronymsController.swift:70-72 | Unauthorized or NotFound leave the store; otherwise exactly the acronym and the pivot rows referring to it go, nothing else changes (users, categories, tokens, the id counter), and the answer is NoContent |
| AcronymsController.AddCategory | Sources/App/Controllers/AcronymsController.swift:99-103 | with both models present the one edge is added and the answer is Created; otherwise Unauthorized or NotFound with the store unchanged |
| AcronymsController.RemoveCategory | Sources/App/Controllers/AcronymsController.swift:112-116 | with both models present exactly that edge is removed and the answer is NoContent; otherwise Unauthorized or NotFound |
| AcronymsController.GetCategories | Sources/App/Controllers/AcronymsController.swift:105-110 | returns exactly the categories linked to the acronym, or NotFound exactly when it is missing |
| AcronymsController.CreateThenGet | Sources/App/Controllers/AcronymsController.swift:38-57 | a created acronym is in the full listing and can be fetched back by its id, and the constraints still hold |
| AcronymsController.UpdateKeepsValid | Sources/App/Controllers/AcronymsController.swift:59-68 | an update keeps every constraint |
| AcronymsController.UpdateThenGet | Sources/App/Controllers/AcronymsController.swift:59-68 | after an update the acronym reads back as updated |
| AcronymsController.DeleteThenGet | Sources/App/Controllers/AcronymsController.swift:70-72 | after a delete the acronym is NotFound, no pivot row refers to it, and the constraints still hold |
| AcronymsController.GetUserIsOwner | Sources/App/Controllers/AcronymsController.swift:93-97 | on a valid database the owner lookup succeeds exactly when the acronym can be fetched, and answers with the public view of its parent |
| AcronymsController.AddCategoryKeepsValid | Sources/App/Controllers/AcronymsController.swift:99-103 | an attach through the API keeps every constraint |
| AcronymsController.RemoveCategoryKeepsValid | Sources/App/Controllers/AcronymsController.swift:112-116 | a detach through the API keeps every constraint |
| AcronymsController.AddCategoryThenList | Sources/App/Controllers/AcronymsController.swift:99-110 | after an attach the category is listed among the acronym's categories |
| AcronymsController.RemoveUndoesAdd | Sources/App/Controllers/AcronymsController.swift:99-116 | detaching right after attaching leaves every other edge as it was and the pair unlinked |
| UsersController.CreateUser | Sources/App/Controllers/UsersController.swift:26-29 | with token authentication and a free username, one user is appended under the next id with the hashed password, no other table changes, and its public view is returned; otherwise the store is unchanged |
| UsersController.GetAllUsers | Sources/App/Controllers/UsersController.swift:31-33 | the public views of all users, one per row, in table order |
| UsersController.GetUser | Sources/App/Controllers/UsersController.swift:35-37 | the public view of the addressed user, or NotFound exactly when there is none |
| UsersController.GetAcronyms | Sources/App/Controllers/UsersController.swift:39-46 | exactly the acronyms the addressed user owns, or NotFound |
| UsersController.BasicUser | Sources/App/Controllers/UsersController.swift:15-17 | without credentials nobody is authenticated; a user it yields has the username and a digest that verifies the password; with unique usernames it yields one exactly when such a user exists |
| UsersController.Login | Sources/App/Controllers/UsersController.swift:48-52 | credentials that do not authenticate get Unauthorized; on keyed users a token is saved exactly when they do, holding the random string and the user's id |
| UsersController.CreateUserKeepsValid | Sources/App/Models/User.swift:40 | creating a user keeps every constraint, since the save happens only under a free username |
| UsersController.CreateUserThenGet | Sources/App/Controllers/UsersController.swift:26-37 | a created user reads back as its public view, and its digest verifies the submitted password |
| UsersController.LoginThenBearer | Sources/App/Controllers/UsersController.swift:48-52 | the token a login issues authenticates, as a bearer, the user who logged in |
| UsersController.WrongPasswordGetsNoToken | Sources/App/Controllers/UsersController.swift:15-17 | a password that verifies for no user of that name gets Unauthorized and no token |
| CategoriesController.CreateCategory | Sources/App/Controllers/CategoriesController.swift:19-21 | with token authentication one category with the name is appended under the next id; otherwise Unauthorized |
| CategoriesController.GetAllCategories | Sources/App/Controllers/CategoriesController.swift:23-25 | every stored category, one per row, in table order |
| CategoriesController.GetCategory | Sources/App/Controllers/CategoriesController.swift:27-29 | the addressed category, or NotFound exactly when there is none |
| CategoriesController.GetAcronyms | Sources/App/Controllers/CategoriesController.swift:31-35 | exactly the acronyms tagged with the addressed category, or NotFound |
| CategoriesController.CreateCategoryThenGet | Sources/App/Controllers/CategoriesController.swift:19-29 | a created category keeps the constraints, is in the full listing, and reads back by its id |
| CategoriesController.ListingsAgree | Sources/App/Controllers/CategoriesController.swift:31-35 | an acronym is listed for a category exactly when that category is listed for the acronym |
| Registration.AllRulesListed | Sources/App/Controllers/WebsiteController.swift:315-326 | the rule list holds every rule |
| Registration.Failures | Sources/App/Controllers/WebsiteController.swift:315-326 | a rule is reported exactly when the form breaks it |
| Registration.AcceptedIffValid | Sources/App/Controllers/WebsiteController.swift:205-215 | validation passes exactly when the name is ASCII, the username is alphanumeric with at least 3 characters, the password has at least 8, and the passwords match |
| CategoryReconciliation.AddCategoryNamed | Sources/App/Controllers/WebsiteController.swift:104 | find-or-create-then-attach changes only the category and pivot tables: it appends one pivot row of the acronym, linking a category that carries the name; it keeps every category, and a category it adds carries the name |
| CategoryReconciliation.AddCategoryNamedTags | Sources/App/Controllers/WebsiteController.swift:144 | on a valid database, attaching a name to a stored acronym adds exactly that name to its tags and keeps the constraints |
| CategoryReconciliation.AddCategoryNamedKeepsOthers | Sources/App/Controllers/WebsiteController.swift:144 | attaching by name leaves the pivot rows of every other acronym as they were |
| CategoryReconciliation.AddCategories | Sources/App/Controllers/WebsiteController.swift:102-105 | attaching the submitted names keeps users, acronyms and tokens; the old pivot rows stay as a prefix and every added row belongs to the acronym; every category is kept, and a category it adds carries one of the names |
| CategoryReconciliation.AddCategoriesTags | Sources/App/Controllers/WebsiteController.swift:102-107 | attaching a list of names adds exactly those names to the acronym's tags and keeps the constraints |
| CategoryReconciliation.DetachAll | Sources/App/Controllers/WebsiteController.swift:151 | a batch of detaches changes only the pivot table, only removes rows, and every row it removes runs from the acronym to a category of the batch |
| CategoryReconciliation.DetachAllEdges | Sources/App/Controllers/WebsiteController.swift:151 | a batch of detaches removes exactly the pivot rows from the acronym to any category of the batch |
| CategoryReconciliation.DetachNamedAsWritten | Sources/App/Controllers/WebsiteController.swift:146-153 | the step as written removes only pivot rows from the acronym to a listed category with the name, and all of them point at one category: a second category with the name keeps its rows |
| CategoryReconciliation.DetachNamedAsWrittenBounds | Sources/App/Controllers/WebsiteController.swift:146-153 | the step as written never removes another name from the acronym's tags and adds none |
| CategoryReconciliation.DetachNamedAsWrittenUntags | Sources/App/Controllers/WebsiteController.swift:146-153 | when the listed categories hold every tagged one and carry distinct names, the step as written does remove the name |
| CategoryReconciliation.DetachNamed | Sources/App/Controllers/WebsiteController.swift:146-153 | the corrected detach-by-name changes only the pivot table, only removes rows, and every row it removes runs from the acronym to a listed category carrying the name |
| CategoryReconciliation.DetachNamedTagged | Sources/App/Controllers/WebsiteController.swift:146-153 | after the corrected detach, a category stays tagged exactly when it was tagged and does not carry the name |
| CategoryReconciliation.DetachNamedKeepsValid | Sources/App/Controllers/WebsiteController.swift:146-153 | the corrected detach only removes pivot rows, all of the acronym, and keeps every constraint |
| CategoryReconciliation.DetachNamedUntags | Sources/App/Controllers/WebsiteController.swift:146-153 | the corrected detach removes exactly the name from the acronym's tags |
| CategoryReconciliation.DuplicatesValid | Sources/App/Controllers/WebsiteController.swift:146-153 | the example database with two same-named tags satisfies every constraint |
| CategoryReconciliation.AsWrittenDetachKeepsDuplicateName | Sources/App/Controllers/WebsiteController.swift:146-153 | with two attached categories named "fun", detaching "fun" as written leaves the acronym tagged "fun" |
| CategoryReconciliation.DetachNamedRemovesDuplicateName | Sources/App/Controllers/WebsiteController.swift:146-153 | on the same database the corrected detach removes "fun" |
| CategoryReconciliation.ReattachKeptNameAddsRow | Sources/App/Controllers/WebsiteController.swift:138-145 | with one tagged "slang" category and an earlier untagged one, attaching "slang" again would add a row that links no newly submitted name; the edit handler, which only attaches names not yet tagged, never adds such a row |
| CategoryReconciliation.ReconciliationPlan | Sources/App/Controllers/WebsiteController.swift:132-139 | the names to add and to remove are disjoint, neither touches a name both sides share, and applying them to the existing names gives the submitted names |
| CategoryReconciliation.ApplyPlan | Sources/App/Controllers/WebsiteController.swift:141-156 | the plan with the corrected detach leaves the tags equal to the old names minus the dropped plus the new; a pivot row whose category carries a name that is not dropped stays, and every row it adds links a category carrying a new name; it keeps the constraints, users, acronyms, tokens, every category and the pivot rows of every other acronym, and a category it adds carries a new name |
| CategoryReconciliation.AttachNames | Sources/App/Controllers/WebsiteController.swift:142-145 | attaching a batch of names adds exactly those names to the tags and keeps the old pivot rows as a prefix; every appended row runs from the acronym to a category carrying a batch name; it keeps the constraints and every other acronym's pivot rows, and adds only categories carrying a batch name |
| CategoryReconciliation.DetachNames | Sources/App/Controllers/WebsiteController.swift:146-153 | the loop with the corrected step removes exactly the batch of names from the tags; it only removes pivot rows, each from the acronym to a listed category carrying a batch name |
| CategoryReconciliation.DetachNamesAsWritten | Sources/App/Controllers/WebsiteController.swift:146-153 | the loop as written removes no name outside the batch and every batch name when the listed categories carry distinct names; it only removes pivot rows, each from the acronym to a listed category carrying a batch name |
| CategoryReconciliation.ApplyPlanAsWritten | Sources/App/Controllers/WebsiteController.swift:141-156 | the plan as written leaves the tags between the old names minus the dropped plus the new and the old names plus the new, exactly the former when the listed categories carry distinct names; a pivot row whose category carries a name that is not dropped stays, and every row it adds links a category carrying a new name; same frame as the corrected plan |
| WebsiteController.Submitted | Sources/App/Controllers/WebsiteController.swift:136 | the submitted names are the list's elements, or none when the list is absent |
| WebsiteController.CreateAcronymForm | Sources/App/Controllers/WebsiteController.swift:82-88 | a logged-in user gets a form carrying the random token, and the session slot holds that token; others are sent to login |
| WebsiteController.CreateAcronymPost | Sources/App/Controllers/WebsiteController.swift:90-109 | the slot is emptied whatever happens; a missing or different token gets BadRequest with the store unchanged; success appends the acronym owned by the session user under the next id and redirects to its page, keeps users and tokens, keeps the old pivot rows as a prefix and every other acronym's rows, keeps every category, and a category it adds carries a submitted name |
| WebsiteController.NewAcronymUntagged | Sources/App/Controllers/WebsiteController.swift:98 | on a valid database a freshly saved acronym has no tags |
| WebsiteController.CreateAcronymPostTags | Sources/App/Controllers/WebsiteController.swift:97-108 | a post with the right token tags the new acronym with exactly the submitted names and keeps the constraints |
| WebsiteController.FormThenSubmit | Sources/App/Controllers/WebsiteController.swift:82-95 | a post carrying the token the form handed out succeeds |
| WebsiteController.TokenIsSingleUse | Sources/App/Controllers/WebsiteController.swift:91-95 | after one post, whatever its outcome, a second post from the same session gets BadRequest and changes nothing |
| WebsiteController.EditAcronymPost | Sources/App/Controllers/WebsiteController.swift:119-159 | not logged in: redirect to login; missing acronym: NotFound; otherwise the acronym reads back with the new short, long and the editor as owner; its tags hold every submitted name and no name outside the old and submitted ones, and equal the submitted names when no two tagged categories share a name; names both tagged and submitted get no attach and no detach: their pivot rows stay, and every added row links a category whose name is submitted but was not tagged; the constraints hold; users, tokens, the other acronyms, their pivot rows and every category are kept |
| WebsiteController.EditAcronymPostIntended | Sources/App/Controllers/WebsiteController.swift:119-159 | the same handler with the corrected detach: the tags equal the submitted names; names both tagged and submitted get no attach and no detach; same answers and frame |
| WebsiteController.SaveEdited | Sources/App/Controllers/WebsiteController.swift:121-131 | the edited row has the submitted short and long and the editor as owner under the same id; saving it keeps the constraints |
| WebsiteController.ReconcileAsWritten | Sources/App/Controllers/WebsiteController.swift:131-156 | the tag step as written leaves the tags between the submitted names and the old plus submitted ones, exactly the submitted ones when the tagged categories carry distinct names; rows of resubmitted tags stay and every added row links a category whose name is submitted but was not tagged; it changes only the acronym's pivot rows and adds categories |
| WebsiteController.Reconcile | Sources/App/Controllers/WebsiteController.swift:131-156 | the corrected tag step leaves the tags equal to the submitted names; rows of resubmitted tags stay and every added row links a newly submitted name; same frame |
| WebsiteController.DeleteAcronymForWeb | Sources/App/Controllers/WebsiteController.swift:161-163 | a logged-in delete of a present acronym removes exactly that acronym and the pivot rows referring to it, changes nothing else, and redirects home; otherwise login redirect or NotFound |
| WebsiteController.DeleteAcronymForWebKeepsValid | Sources/App/Controllers/WebsiteController.swift:161-163 | the web delete keeps every constraint |
| WebsiteController.LoginPost | Sources/App/Controllers/WebsiteController.swift:175-185 | a verified user is put in the session and sent home; otherwise the session is unchanged and the answer is the login error page |
| WebsiteController.LoginThenSessionUser | Sources/App/Controllers/WebsiteController.swift:175-185 | login succeeds exactly when a stored user has that username and password, and the session then authenticates that user |
| WebsiteController.Logout | Sources/App/Controllers/WebsiteController.swift:187-192 | logout forgets the session user, keeps the form token slot and redirects home |
| WebsiteController.LogoutEndsSession | Sources/App/Controllers/WebsiteController.swift:187-192 | after logout the session authenticates no one and the protected routes redirect to login |
| WebsiteController.RegisterPost | Sources/App/Controllers/WebsiteController.swift:204-222 | an invalid form is sent back with the broken rules and nothing changes; a taken username fails with status 500; otherwise one user under the next id with the hashed password is appended, no other table changes, it is logged in and sent home |
| WebsiteController.RegisterThenLogin | Sources/App/Controllers/WebsiteController.swift:216-221 | a successful registration keeps the constraints, logs the new user in, and the same credentials log in from a fresh session |

## Left out

- Page rendering: the Leaf templates and their contexts, and the read-only web pages (index, acronym, user, all users, all categories, category, the login and register forms). They only render queries the model already has.
- Route registration beyond the authentication each route sits behind. Also left out: `configure.swift`, `routes.swift`, the Imperial OAuth controller and `Package.swift`.
- `Sources/App/Models/Category.swift` is not part of this model. `CategoryModel` and `CategoryReconciliation.AddCategoryNamed` follow its use by the web controller: find the first category with the name, else save a new one, then attach.
- `Sources/App/Models/Token.swift` is not part of this model. `TokenModel` follows its use by the login handler and the token middleware.
- Concurrency. The handlers start their attach and detach futures together and wait for all of them; the model applies them one after another.
- CategoryReconciliation.AddCategories: two copies of a new name in one create form run their find-or-create steps concurrently in the application and may save two categories. The sequential model saves one.
- Duplicate join rows. A sibling query over two pivot rows with the same ends lists the category twice; `Database.CategoriesOf` lists it once.
- Validation messages. The failure reason text, its percent encoding in the redirect, and the "Unknow+error" fallback are not modelled. The redirect carries the list of broken rules instead.
- Registration.IsAlphanumeric: accepts ASCII letters and digits only. Foundation's alphanumeric character set, which the `.alphanumeric` validator uses, also contains non-ASCII letters and digits.
- Registration.Passes: lengths count code points. Swift's `count` counts grapheme clusters.
- BCrypt is the parameter `Hasher`, so salting and cost factors are not modelled. Verification is equality with the hash of the password.
- Random strings from `CryptoRandom` and `Token.generate` are parameters. Their freshness is a precondition of `UsersController.LoginThenBearer`.
- Client-supplied ids in the user and category bodies that the create handlers decode. The model always assigns the next id.
- Database failures other than the unique-username violation (I/O errors, a lost connection). Also the `fatalError` in the `AdminUser` migration, which needs a failing hash.
- Ids are abstracted. In the application users and pivot rows have random UUIDs (Sources/App/Models/User.swift:33, Sources/App/Models/AcronymCategoryPivot.swift:5-6), and acronyms have integers numbered within their own table (Sources/App/Models/Acronym.swift:38); `Sources/App/Models/Category.swift` and `Sources/App/Models/Token.swift` are not part of this model. The model draws every id from one shared counter. Only freshness is modelled, so an id in the model, such as the acronym page a create redirects to, is not the value the database would assign.
- The pivot is declared as a MySQL model (Sources/App/Models/AcronymCategoryPivot.swift:2-5) but its migration is registered on the SQLite database (Sources/App/configure.swift:50). The model treats it as one more table of the same database.
- Session storage and cookies. The session is a value passed in and returned.
- WebsiteController.EditAcronymPost: requires a database that satisfies the schema constraints (which every modelled mutation keeps). When two tagged categories share a name, it states only the bounds on the resulting tags; `CategoryReconciliation.AsWrittenDetachKeepsDuplicateName` shows a duplicate name staying.
- CategoryReconciliation.ApplyPlan: requires a valid database and a category list that holds every category tagged on the acronym, as the edit handler's query provides.
- CategoryReconciliation.ReconciliationPlan: names are compared code point by code point. Swift's `String` equality, which `Set<String>` uses, treats canonically equivalent strings as equal, so "café" written with a combining accent matches the precomposed one in the application but not in the model.
- CategoryReconciliation.DetachNamedAsWritten: the name match is code point equality, not Swift's canonical equivalence.
- WebsiteController.EditAcronymPost: the submitted names and the attached names are compared code point by code point, not by canonical equivalence.
- WebsiteController.CreateAcronymPost: the form token is compared code point by code point, not by canonical equivalence. The emptied session slot is taken to persist on the BadRequest path too. `configure.swift` registers `ErrorMiddleware` before `SessionsMiddleware`; whether a session changed before an `Abort` is still written back is framework behaviour outside these sources.
- WebsiteController.TokenIsSingleUse: rests on the same assumption, that the emptied slot persists after a refused post.
- Authentication.TokenUser: a token whose owner row is missing authenticates nobody (Unauthorized), where the framework would fail with status 500 loading the owner. No modelled operation reaches that state: tokens are issued only to stored users, and users are never deleted.
- UsersController.Login: the equivalence between success and authenticated credentials is stated for databases whose user ids are unique.

## Findings

| source | as written | input that shows it | evidently intended | confidence | as-written member | corrected member |
|---|---|---|---|---|---|---|
| Sources/App/Controllers/WebsiteController.swift:146-153 | each name to remove detaches only `existingCategories.first` with that name | an acronym tagged with two categories that are both named "fun" (category names are not unique), edited without "fun": one of them stays attached, so the acronym is still tagged "fun" | every attached category carrying a dropped name is detached, so the tags equal the submitted names | not executed | CategoryReconciliation.AsWrittenDetachKeepsDuplicateName | WebsiteController.EditAcronymPostIntended |

=== FILE: acronym.dfy ===
/** The `Acronym` model: a short form, its long form and the owning user. */
module AcronymModel {
  import opened Common

  /** An acronym row; `userID` is a foreign key to `User.id`. */
  datatype Acronym = Acronym(id: Option<Id>, short: string, long: string, userID: Id)

  /** `Acronym.init`: sets the three fields from its arguments and leaves the id unset. */
  function NewAcronym(short: string, long: string, userID: Id): (a: Acronym)
    ensures a.id.None?
    ensures a.short == short && a.long == long && a.userID == userID
  {
    Acronym(None, short, long, userID)
  }
}

=== FILE: acronyms_controller.dfy ===
/**
 The JSON API under `/api/acronyms`. The reads are open; create, update,
 delete, attach and detach sit behind token authentication and the guard
 middleware, so a request without a valid bearer token is answered
 `Unauthorized` before the handler runs.
 */
module AcronymsController {
  import opened Common
  import opened UserModel
  import opened AcronymModel
  import opened CategoryModel
  import opened PivotModel
  import opened Database
  import opened Authentication
  import opened Ordering

  /** `AcronymCreateData`: the body of a create or update request. */
  datatype AcronymCreateData = AcronymCreateData(short: string, long: string)

  /** `getAllHandler`: every acronym, in table order. */
  function GetAll(s: Store): (r: seq<Acronym>)
    ensures |r| == |s.acronyms|
    ensures forall i :: 0 <= i < |r| ==> r[i] == s.acronyms[i]
  {
    s.acronyms
  }

  /** `getHandler`: the acronym with the id in the path. */
  function Get(s: Store, k: Id): (r: Result<Acronym>)
    ensures r.Success? ==> r.value in s.acronyms && r.value.id == Some(k)
    ensures r.Failure? <==> forall a :: a in s.acronyms ==> a.id != Some(k)
    ensures r.Failure? ==> r.status == NotFound
  {
    match AcronymById(s, k)
    case None => Failure(NotFound)
    case Some(a) => Success(a)
  }

  /** `searchHandler`: the acronyms whose short or long form equals the term exactly. */
  function Search(s: Store, term: Option<string>): (r: Result<seq<Acronym>>)
    ensures r.Failure? <==> term.None?
    ensures r.Failure? ==> r.status == BadRequest
    ensures r.Success? ==> forall a :: a in r.value ==> a in s.acronyms && (a.short == term.value || a.long == term.value)
    ensures r.Success? ==> forall a :: a in s.acronyms && (a.short == term.value || a.long == term.value) ==> a in r.value
  {
    if term.None? then Failure(BadRequest)
    else Success(Seqs.Filter(s.acronyms, (a: Acronym) => a.short == term.value || a.long == term.value))
  }

  /** `getFirstHandler`: some stored acronym, or `NotFound` on an empty table. */
  function GetFirst(s: Store): (r: Result<Acronym>)
    ensures r.Failure? <==> |s.acronyms| == 0
    ensures r.Failure? ==> r.status == NotFound
    ensures r.Success? ==> r.value in s.acronyms
  {
    if |s.acronyms| == 0 then Failure(NotFound) else Success(s.acronyms[0])
  }

  /** `sortedHandler`: all acronyms, descending by `short`. */
  function Sorted(s: Store): (r: seq<Acronym>)
    ensures multiset(r) == multiset(s.acronyms)
    ensures DescendingByShort(r)
  {
    SortByShortDescending(s.acronyms)
  }

  /** `getUserFromAcronymHandler`: the public view of the acronym's owner. An owner that
      cannot be loaded makes `Parent.get` throw a non-HTTP error, answered with status 500. */
  function GetUser(s: Store, k: Id): (r: Result<Public>)
    ensures r.Success? ==> exists a, u :: a in s.acronyms && a.id == Some(k) && u in s.users &&
                                         u.id == Some(a.userID) && r.value == ConvertToPublic(u)
    ensures r.Failure? && r.status == NotFound <==> forall a :: a in s.acronyms ==> a.id != Some(k)
    ensures AcronymsOwned(s) && (exists a :: a in s.acronyms && a.id == Some(k)) ==> r.Success?
  {
    match AcronymById(s, k)
    case None => Failure(NotFound)
    case Some(a) =>
      match ParentOf(s, a)
      case None => Failure(InternalServerError)
      case Some(u) => Success(ConvertToPublic(u))
  }

  /** `createHandler`: a new acronym owned by the authenticated user. */
  function Create(s: Store, bearer: Option<string>, data: AcronymCreateData): (r: Reply<Acronym>)
    ensures TokenUser(s, bearer).None? ==> r == Reply(s, Failure(Unauthorized))
    ensures TokenUser(s, bearer).Some? ==> r.result.Success?
    ensures r.result.Success? ==>
              var a := r.result.value;
              && a.short == data.short && a.long == data.long
              && Some(a.userID) == TokenUser(s, bearer).value.id
              && a.id == Some(s.nextId)
              && r.store.acronyms == s.acronyms + [a]
              && r.store == s.(acronyms := r.store.acronyms, nextId := s.nextId + 1)
  {
    match TokenUser(s, bearer)
    case None => Reply(s, Failure(Unauthorized))
    case Some(u) =>
      var (s', saved) := InsertAcronym(s, NewAcronym(data.short, data.long, u.id.value));
      Reply(s', Success(saved))
  }

  /** `updateHandler`: overwrite short, long and owner of the addressed acronym; the owner
      becomes the authenticated user. Every other row is left as it was. */
  function Update(s: Store, bearer: Option<string>, k: Id, data: AcronymCreateData): (r: Reply<Acronym>)
    ensures TokenUser(s, bearer).None? ==> r == Reply(s, Failure(Unauthorized))
    ensures TokenUser(s, bearer).Some? && Get(s, k).Failure? ==> r == Reply(s, Failure(NotFound))
    ensures r.result.Success? <==> TokenUser(s, bearer).Some? && Get(s, k).Success?
    ensures r.result.Success? ==>
              var a := r.result.value;
              && a.id == Some(k) && a.short == data.short && a.long == data.long
              && Some(a.userID) == TokenUser(s, bearer).value.id
              && |r.store.acronyms| == |s.acronyms|
              && (forall i :: 0 <= i < |s.acronyms| ==>
                    r.store.acronyms[i] == if s.acronyms[i].id == Some(k) then a else s.acronyms[i])
              && r.store == s.(acronyms := r.store.acronyms)
  {
    match TokenUser(s, bearer)
    case None => Reply(s, Failure(Unauthorized))
    case Some(u) =>
      match AcronymById(s, k)
      case None => Reply(s, Failure(NotFound))
      case Some(a) =>
        var updated := a.(short := data.short, long := data.long, userID := u.id.value);
        Reply(UpdateAcronym(s, updated), Success(updated))
  }

  /** `deleteHandler`: remove the addressed acronym (and, by cascade, its pivot rows). */
  function Delete(s: Store, bearer: Option<string>, k: Id): (r: Reply<Status>)
    ensures TokenUser(s, bearer).None? ==> r == Reply(s, Failure(Unauthorized))
    ensures TokenUser(s, bearer).Some? && Get(s, k).Failure? ==> r == Reply(s, Failure(NotFound))
    ensures r.result.Success? <==> TokenUser(s, bearer).Some? && Get(s, k).Success?
    ensures r.result.Success? ==>
              && r.result.value == NoContent
              && (forall a :: a in r.store.acronyms <==> a in s.acronyms && a.id != Some(k))
              && (forall p :: p in r.store.pivots <==> p in s.pivots && p.acronymID != k)
              && r.store == s.(acronyms := r.store.acronyms, pivots := r.store.pivots)
  {
    match TokenUser(s, bearer)
    case None => Reply(s, Failure(Unauthorized))
    case Some(_) =>
      if AcronymById(s, k).None? then Reply(s, Failure(NotFound))
      else Reply(DeleteAcronym(s, k), Success(NoContent))
  }

  /** `addCategoriesHandler`: attach the addressed category to the addressed acronym. */
  function AddCategory(s: Store, bearer: Option<string>, aid: Id, cid: Id): (r: Reply<Status>)
    ensures TokenUser(s, bearer).None? ==> r == Reply(s, Failure(Unauthorized))
    ensures TokenUser(s, bearer).Some? && (AcronymById(s, aid).None? || CategoryById(s, cid).None?) ==>
              r == Reply(s, Failure(NotFound))
    ensures r.result.Success? <==>
              TokenUser(s, bearer).Some? && AcronymById(s, aid).Some? && CategoryById(s, cid).Some?
    ensures r.result.Success? ==>
              && r.result.value == Created
              && (forall x, y :: HasEdge(r.store.pivots, x, y) <==> HasEdge(s.pivots, x, y) || (x == aid && y == cid))
              && r.store.(pivots := s.pivots, nextId := s.nextId) == s
  {
    match TokenUser(s, bearer)
    case None => Reply(s, Failure(Unauthorized))
    case Some(_) =>
      match (AcronymById(s, aid), CategoryById(s, cid))
      case (Some(a), Some(c)) =>
        var attached := Attach(s, a, c);
        Reply(attached.value, Success(Created))
      case _ => Reply(s, Failure(NotFound))
  }

  /** `removeCategoriesHandler`: detach the addressed category from the addressed acronym. */
  function RemoveCategory(s: Store, bearer: Option<string>, aid: Id, cid: Id): (r: Reply<Status>)
    ensures TokenUser(s, bearer).None? ==> r == Reply(s, Failure(Unauthorized))
    ensures TokenUser(s, bearer).Some? && (AcronymById(s, aid).None? || CategoryById(s, cid).None?) ==>
              r == Reply(s, Failure(NotFound))
    ensures r.result.Success? <==>
              TokenUser(s, bearer).Some? && AcronymById(s, aid).Some? && CategoryById(s, cid).Some?
    ensures r.result.Success? ==>
              && r.result.value == NoContent
              && (forall x, y :: HasEdge(r.store.pivots, x, y) <==> HasEdge(s.pivots, x, y) && !(x == aid && y == cid))
              && r.store.(pivots := s.pivots) == s
  {
    match TokenUser(s, bearer)
    case None => Reply(s, Failure(Unauthorized))
    case Some(_) =>
      match (AcronymById(s, aid), CategoryById(s, cid))
      case (Some(a), Some(c)) =>
        var detached := Detach(s, a, c);
        Reply(detached.value, Success(NoContent))
      case _ => Reply(s, Failure(NotFound))
  }

  /** `getCategoriesHandler`: the categories attached to the addressed acronym. */
  function GetCategories(s: Store, aid: Id): (r: Result<seq<Category>>)
    ensures r.Failure? <==> forall a :: a in s.acronyms ==> a.id != Some(aid)
    ensures r.Failure? ==> r.status == NotFound
    ensures r.Success? ==> forall c :: c in r.value <==> c in s.categories && c.id.Some? && HasEdge(s.pivots, aid, c.id.value)
  {
    if AcronymById(s, aid).None? then Failure(NotFound) else Success(CategoriesOf(s, aid))
  }

  // ---------------------------------------------------------------------------
  // Round trips and preserved constraints

  /** A created acronym is listed and can be fetched back by its new id, and the constraints still hold. */
  lemma CreateThenGet(s: Store, bearer: Option<string>, data: AcronymCreateData)
    requires Valid(s) && TokenUser(s, bearer).Some?
    ensures var r := Create(s, bearer, data);
            && Valid(r.store)
            && r.result.value in GetAll(r.store)
            && Get(r.store, r.result.value.id.value) == Success(r.result.value)
  {
    var u := TokenUser(s, bearer).value;
    InsertAcronymKeepsValid(s, NewAcronym(data.short, data.long, u.id.value));
    var r := Create(s, bearer, data);
    AcronymByIdFindsRow(r.store, r.result.value);
  }

  /** On a valid database the owner lookup succeeds exactly when the acronym exists, and
      answers with the public view of the acronym's parent. */
  lemma GetUserIsOwner(s: Store, k: Id)
    requires Valid(s)
    ensures GetUser(s, k).Success? <==> Get(s, k).Success?
    ensures GetUser(s, k).Success? ==>
              GetUser(s, k).value == ConvertToPublic(ParentOf(s, Get(s, k).value).value)
  {
    if Get(s, k).Success? {
      ParentExists(s, Get(s, k).value);
    }
  }

  /** An update keeps the constraints. */
  lemma UpdateKeepsValid(s: Store, bearer: Option<string>, k: Id, data: AcronymCreateData)
    requires Valid(s)
    ensures Valid(Update(s, bearer, k, data).store)
  {
    var r := Update(s, bearer, k, data);
    if r.result.Success? {
      UpdateAcronymKeepsValid(s, AcronymById(s, k).value, r.result.value);
    }
  }

  /** After an update, fetching the acronym gives the updated row. */
  lemma UpdateThenGet(s: Store, bearer: Option<string>, k: Id, data: AcronymCreateData)
    requires Valid(s)
    ensures var r := Update(s, bearer, k, data);
            r.result.Success? ==> Get(r.store, k) == Success(r.result.value)
  {
    var r := Update(s, bearer, k, data);
    if r.result.Success? {
      var a := AcronymById(s, k).value;
      UpdateAcronymKeepsValid(s, a, r.result.value);
      var i :| 0 <= i < |s.acronyms| && s.acronyms[i] == a;
      assert r.store.acronyms[i] == r.result.value;
      AcronymByIdFindsRow(r.store, r.result.value);
    }
  }

  /** After a delete the acronym is gone, no pivot row refers to it, and the constraints still hold. */
  lemma DeleteThenGet(s: Store, bearer: Option<string>, k: Id)
    requires Valid(s)
    ensures var r := Delete(s, bearer, k);
            && Valid(r.store)
            && (r.result.Success? ==> Get(r.store, k) == Failure(NotFound) &&
                                      forall p :: p in r.store.pivots ==> p.acronymID != k)
  {
    DeleteAcronymKeepsValid(s, k);
  }

  /** Attaching and detaching through the API keep the constraints. */
  lemma AddCategoryKeepsValid(s: Store, bearer: Option<string>, aid: Id, cid: Id)
    requires Valid(s)
    ensures Valid(AddCategory(s, bearer, aid, cid).store)
  {
    if AddCategory(s, bearer, aid, cid).result.Success? {
      AttachKeepsValid(s, AcronymById(s, aid).value, CategoryById(s, cid).value);
    }
  }

  lemma RemoveCategoryKeepsValid(s: Store, bearer: Option<string>, aid: Id, cid: Id)
    requires Valid(s)
    ensures Valid(RemoveCategory(s, bearer, aid, cid).store)
  {
    DetachIdsKeepsValid(s, aid, cid);
  }

  /** Attaching makes the category show up among the acronym's categories. */
  lemma AddCategoryThenList(s: Store, bearer: Option<string>, aid: Id, cid: Id)
    ensures var r := AddCategory(s, bearer, aid, cid);
            r.result.Success? ==> exists c :: c in s.categories && c.id == Some(cid) &&
                                              GetCategories(r.store, aid).Success? &&
                                              c in GetCategories(r.store, aid).value
  {
    var r := AddCategory(s, bearer, aid, cid);
    if r.result.Success? {
      var c := CategoryById(s, cid).value;
      assert HasEdge(r.store.pivots, aid, cid);
      assert c in r.store.categories;
    }
  }

  /** Detaching right after attaching leaves exactly the edges a plain detach leaves:
      every other edge is untouched and the pair is unlinked. */
  lemma RemoveUndoesAdd(s: Store, bearer: Option<string>, aid: Id, cid: Id)
    ensures var r1 := AddCategory(s, bearer, aid, cid);
            var r2 := RemoveCategory(r1.store, bearer, aid, cid);
            r1.result.Success? ==>
              r2.result == Success(NoContent) &&
              forall x, y :: HasEdge(r2.store.pivots, x, y) <==> HasEdge(s.pivots, x, y) && !(x == aid && y == cid)
  {
    var r1 := AddCategory(s, bearer, aid, cid);
    if r1.result.Success? {
      assert r1.store.users == s.users && r1.store.tokens == s.tokens;
      assert r1.store.acronyms == s.acronyms && r1.store.categories == s.categories;
    }
  }
}

=== FILE: authentication.dfy ===
/**
 The three ways a request gets an authenticated user: a bearer token (API
 routes behind `tokenAuthMiddleware` and `guardAuthMiddleware`), a username
 and password checked against the stored digest (HTTP basic auth on the API
 login route, and the web login form), and the user id kept in the browser
 session (web routes behind `authSessionsMiddleware`).
 */
module Authentication {
  import opened Common
  import opened Seqs
  import opened UserModel
  import opened TokenModel
  import opened Database

  /** The server-side session of one browser: the `CSRF_TOKEN` slot and the logged-in user. */
  datatype Session = Session(csrfToken: Option<string>, userID: Option<Id>)

  /** A browser that has not logged in and holds no form token. */
  const NewSession: Session := Session(None, None)

  /** `User.authenticate(username:password:using:)`: the user with that username, when the
      password verifies against its stored digest. */
  function PasswordUser(s: Store, hash: Hasher, username: string, password: string): (r: Option<User>)
    ensures r.Some? ==> r.value in s.users && r.value.username == username
                        && Verify(hash, r.value.password, password)
    ensures UsernamesUnique(s) ==>
              (r.Some? <==> exists u :: u in s.users && u.username == username && Verify(hash, u.password, password))
  {
    match UserByName(s, username)
    case None => None
    case Some(u) => if Verify(hash, u.password, password) then Some(u) else None
  }

  /** Token authentication: the owner of the first stored token with that value. A request
      without a bearer token is not authenticated. A token whose owner row is missing also
      authenticates nobody here, where the framework's parent lookup would fail with status
      500; no modelled operation reaches that state, since tokens are issued only to stored
      users and no user is ever deleted. */
  function TokenUser(s: Store, bearer: Option<string>): (r: Option<User>)
    ensures r.Some? ==> bearer.Some? && r.value in s.users &&
                        exists t :: t in s.tokens && t.token == bearer.value && r.value.id == Some(t.userID)
    ensures bearer.None? ==> r.None?
    ensures bearer.Some? && (forall t :: t in s.tokens ==> t.token != bearer.value) ==> r.None?
    ensures bearer.Some? && (exists t :: t in s.tokens && t.token == bearer.value) &&
            (forall t :: t in s.tokens && t.token == bearer.value ==> exists u :: u in s.users && u.id == Some(t.userID))
            ==> r.Some?
  {
    if bearer.None? then None
    else
      match First(s.tokens, (t: Token) => t.token == bearer.value)
      case None => None
      case Some(t) => UserById(s, t.userID)
  }

  /** Session authentication: the stored user whose id the session holds. */
  function SessionUser(s: Store, session: Session): (r: Option<User>)
    ensures r.Some? <==> session.userID.Some? && exists u :: u in s.users && u.id == session.userID
    ensures r.Some? ==> r.value in s.users && r.value.id == session.userID
  {
    if session.userID.None? then None else UserById(s, session.userID.value)
  }

  /** A token whose value no earlier token has authenticates its owner. */
  lemma FreshTokenAuthenticatesOwner(s: Store, t: Token)
    requires UsersKeyed(s)
    requires forall e :: e in s.tokens ==> e.token != t.token
    requires exists u :: u in s.users && u.id == Some(t.userID)
    ensures TokenUser(s.(tokens := s.tokens + [t]), Some(t.token)).Some?
    ensures TokenUser(s.(tokens := s.tokens + [t]), Some(t.token)).value.id == Some(t.userID)
  {
    var s' := s.(tokens := s.tokens + [t]);
    var found := First(s'.tokens, (x: Token) => x.token == t.token);
    assert t in s'.tokens;
    assert found.Some?;
    var i :| 0 <= i < |s'.tokens| && s'.tokens[i] == found.value && found.value.token == t.token;
    assert forall j :: 0 <= j < |s.tokens| ==> s'.tokens[j] in s.tokens;
    assert found.value == t;
  }
}

=== FILE: categories_controller.dfy ===
/**
 The JSON API under `/api/categories`: listing and fetching categories, the
 acronyms tagged with one, and creating one (behind token authentication).
 */
module CategoriesController {
  import opened Common
  import opened AcronymModel
  import opened CategoryModel
  import opened PivotModel
  import opened Database
  import opened Authentication
  import AcronymsController

  /** `createCategoryHandler`: save the decoded category. Names are not checked for uniqueness. */
  function CreateCategory(s: Store, bearer: Option<string>, name: string): (r: Reply<Category>)
    ensures TokenUser(s, bearer).None? ==> r == Reply(s, Failure(Unauthorized))
    ensures r.result.Success? <==> TokenUser(s, bearer).Some?
    ensures r.result.Success? ==>
              && r.result.value == Category(Some(s.nextId), name)
              && r.store == s.(categories := s.categories + [r.result.value], nextId := s.nextId + 1)
  {
    if TokenUser(s, bearer).None? then Reply(s, Failure(Unauthorized))
    else
      var (s', saved) := InsertCategory(s, NewCategory(name));
      Reply(s', Success(saved))
  }

  /** `getAllCategoriesHandler`: every category, in table order. */
  function GetAllCategories(s: Store): (r: seq<Category>)
    ensures |r| == |s.categories|
    ensures forall i :: 0 <= i < |r| ==> r[i] == s.categories[i]
  {
    s.categories
  }

  /** `getCategoryHandler`: the addressed category. */
  function GetCategory(s: Store, k: Id): (r: Result<Category>)
    ensures r.Failure? <==> forall c :: c in s.categories ==> c.id != Some(k)
    ensures r.Failure? ==> r.status == NotFound
    ensures r.Success? ==> r.value in s.categories && r.value.id == Some(k)
  {
    match CategoryById(s, k)
    case None => Failure(NotFound)
    case Some(c) => Success(c)
  }

  /** `getAcronymsFromCategoryHandler`: the acronyms tagged with the addressed category. */
  function GetAcronyms(s: Store, k: Id): (r: Result<seq<Acronym>>)
    ensures r.Failure? <==> forall c :: c in s.categories ==> c.id != Some(k)
    ensures r.Failure? ==> r.status == NotFound
    ensures r.Success? ==> forall a :: a in r.value <==> a in s.acronyms && a.id.Some? && HasEdge(s.pivots, a.id.value, k)
  {
    if CategoryById(s, k).None? then Failure(NotFound) else Success(AcronymsOf(s, k))
  }

  /** A created category keeps the constraints, is listed, and can be fetched back by its new id. */
  lemma CreateCategoryThenGet(s: Store, bearer: Option<string>, name: string)
    requires Valid(s)
    ensures var r := CreateCategory(s, bearer, name);
            && Valid(r.store)
            && (r.result.Success? ==> r.result.value in GetAllCategories(r.store) &&
                                      GetCategory(r.store, s.nextId) == r.result)
  {
    var r := CreateCategory(s, bearer, name);
    InsertCategoryKeepsValid(s, NewCategory(name));
    if r.result.Success? {
      CategoryByIdFindsRow(r.store, r.result.value);
    }
  }

  /** The two listings agree: acronym `a` is listed for category `c` exactly when `c` is listed for `a`. */
  lemma ListingsAgree(s: Store, a: Acronym, c: Category)
    requires a in s.acronyms && c in s.categories && a.id.Some? && c.id.Some?
    ensures GetAcronyms(s, c.id.value).Success? && AcronymsController.GetCategories(s, a.id.value).Success?
    ensures a in GetAcronyms(s, c.id.value).value <==> c in AcronymsController.GetCategories(s, a.id.value).value
  {
    SiblingsSymmetric(s, a, c);
  }
}

=== FILE: category.dfy ===
/** The `Category` model: a named tag. Category names are not unique in the schema. */
module CategoryModel {
  import opened Common

  datatype Category = Category(id: Option<Id>, name: string)

  /** `Category.init`: a category that is not saved yet. */
  function NewCategory(name: string): (c: Category)
    ensures c.id.None? && c.name == name
  {
    Category(None, name)
  }
}

=== FILE: category_reconciliation.dfy ===
/**
 Tagging an acronym with categories by name, as the web forms do it: the
 find-or-create-then-attach step used on create and edit, and the set
 reconciliation of the edit form, which compares the acronym's current
 category names with the submitted ones, attaches the new names and detaches
 the dropped ones. The attach and detach operations, which the application
 issues concurrently and waits for together, are applied here one after the
 other.
 */
module CategoryReconciliation {
  import opened Common
  import opened Seqs
  import opened UserModel
  import opened AcronymModel
  import opened CategoryModel
  import opened PivotModel
  import opened Database

  /** Category `c` is stored and some pivot row links acronym `aid` to it. */
  ghost predicate Tagged(s: Store, aid: Id, c: Category)
  {
    c in s.categories && c.id.Some? && HasEdge(s.pivots, aid, c.id.value)
  }

  /** A category name is among an acronym's tags exactly when some tagged category carries it. */
  lemma NameIn(s: Store, aid: Id, x: string)
    ensures x in NamesOf(s, aid) <==> exists c :: Tagged(s, aid, c) && c.name == x
  {
    if x in NamesOf(s, aid) {
      var c :| c in CategoriesOf(s, aid) && c.name == x;
      assert Tagged(s, aid, c);
    }
    if exists c :: Tagged(s, aid, c) && c.name == x {
      var c :| Tagged(s, aid, c) && c.name == x;
      assert c in CategoriesOf(s, aid);
    }
  }

  /** Tags are names: when exactly the categories other than those named `name` stay
      tagged, exactly that name leaves the acronym's names. */
  lemma UntagNames(s: Store, s': Store, aid: Id, name: string)
    requires forall d :: Tagged(s', aid, d) ==> Tagged(s, aid, d) && d.name != name
    requires forall d :: Tagged(s, aid, d) && d.name != name ==> Tagged(s', aid, d)
    ensures NamesOf(s', aid) == NamesOf(s, aid) - {name}
  {
    forall x ensures x in NamesOf(s', aid) <==> x in NamesOf(s, aid) && x != name {
      NameIn(s', aid, x);
      NameIn(s, aid, x);
    }
  }

  /** One new tag edge to `c` adds exactly `c`'s name to the acronym's names. */
  lemma TagNames(s: Store, s': Store, aid: Id, c: Category)
    requires c.id.Some? && c in s'.categories
    requires forall d :: d in s'.categories ==> d in s.categories || d == c
    requires forall d :: d in s.categories ==> d in s'.categories
    requires forall d :: d in s'.categories && d.id == c.id ==> d == c
    requires forall y :: HasEdge(s'.pivots, aid, y) <==> HasEdge(s.pivots, aid, y) || y == c.id.value
    ensures NamesOf(s', aid) == NamesOf(s, aid) + {c.name}
  {
    forall x ensures x in NamesOf(s', aid) <==> x in NamesOf(s, aid) || x == c.name {
      NameIn(s', aid, x);
      NameIn(s, aid, x);
      if x in NamesOf(s', aid) {
        var d :| Tagged(s', aid, d) && d.name == x;
        if d != c {
          assert Tagged(s, aid, d);
        }
      }
      if x == c.name {
        assert Tagged(s', aid, c);
      }
      if x in NamesOf(s, aid) {
        var d :| Tagged(s, aid, d) && d.name == x;
        assert Tagged(s', aid, d);
      }
    }
  }

  /** Removing pivot rows never breaks a constraint. */
  lemma FewerPivotsKeepValid(s: Store, pivots: seq<Pivot>)
    requires Valid(s)
    requires forall p :: p in pivots ==> p in s.pivots
    ensures Valid(s.(pivots := pivots))
  {
    var s' := s.(pivots := pivots);
    forall p | p in s'.pivots
      ensures exists b :: b in s'.acronyms && b.id == Some(p.acronymID)
    {
      var b :| b in s.acronyms && b.id == Some(p.acronymID);
    }
  }

  // ---------------------------------------------------------------------------
  // Attaching by name

  /** `Category.addCategory(_:to:on:)`: attach the first category with that name, creating
      it first when there is none. An edge that already exists is added again. */
  function AddCategoryNamed(s: Store, a: Acronym, name: string): (r: Result<Store>)
    ensures r.Success? ==> r.value.users == s.users && r.value.acronyms == s.acronyms && r.value.tokens == s.tokens
    ensures r.Success? ==> |r.value.pivots| == |s.pivots| + 1 && r.value.pivots[..|s.pivots|] == s.pivots &&
                           a.id == Some(r.value.pivots[|s.pivots|].acronymID)
    ensures r.Success? ==> forall c :: c in s.categories ==> c in r.value.categories
    ensures r.Success? ==> forall c :: c in r.value.categories && c !in s.categories ==> c.name == name
    ensures r.Success? ==> exists c :: c in r.value.categories && c.name == name &&
                                       c.id == Some(r.value.pivots[|s.pivots|].categoryID)
  {
    match CategoryByName(s, name)
    case Some(c) =>
      var r := Attach(s, a, c);
      assert r.Success? ==> c in r.value.categories;
      r
    case None =>
      var (s1, c) := InsertCategory(s, NewCategory(name));
      var r := Attach(s1, a, c);
      assert r.Success? ==> c in r.value.categories;
      r
  }

  /** Attaching a name to a stored acronym adds exactly that name to its tags. */
  lemma AddCategoryNamedTags(s: Store, a: Acronym, name: string)
    requires Valid(s) && a in s.acronyms
    ensures AddCategoryNamed(s, a, name).Success?
    ensures Valid(AddCategoryNamed(s, a, name).value)
    ensures NamesOf(AddCategoryNamed(s, a, name).value, a.id.value) == NamesOf(s, a.id.value) + {name}
  {
    var aid := a.id.value;
    match CategoryByName(s, name)
    case Some(c) =>
      AttachKeepsValid(s, a, c);
      TagNames(s, Attach(s, a, c).value, aid, c);
    case None =>
      var (s1, c) := InsertCategory(s, NewCategory(name));
      InsertCategoryKeepsValid(s, NewCategory(name));
      assert forall d :: d in s1.categories ==> d in s.categories || d == c;
      AttachKeepsValid(s1, a, c);
      TagNames(s, Attach(s1, a, c).value, aid, c);
  }

  /** Attaching by name adds a pivot row of this acronym only. */
  lemma AddCategoryNamedKeepsOthers(s: Store, a: Acronym, name: string)
    requires AddCategoryNamed(s, a, name).Success?
    ensures forall p: Pivot :: p.acronymID != a.id.value ==>
              (p in AddCategoryNamed(s, a, name).value.pivots <==> p in s.pivots)
  {
    var r := AddCategoryNamed(s, a, name).value;
    assert forall p :: p in r.pivots <==> p in s.pivots || p == r.pivots[|s.pivots|];
  }

  lemma ElementsCons(names: seq<string>)
    requires |names| > 0
    ensures (set n | n in names) == {names[0]} + set n | n in names[1..]
  {
    assert forall n :: n in names <==> n == names[0] || n in names[1..];
  }

  /** The category names of the create form, attached one after the other. */
  function AddCategories(s: Store, a: Acronym, names: seq<string>): (r: Result<Store>)
    ensures r.Success? ==> r.value.users == s.users && r.value.acronyms == s.acronyms && r.value.tokens == s.tokens
    ensures r.Success? ==> |r.value.pivots| >= |s.pivots| && r.value.pivots[..|s.pivots|] == s.pivots
    ensures r.Success? ==> forall i :: |s.pivots| <= i < |r.value.pivots| ==> a.id == Some(r.value.pivots[i].acronymID)
    ensures r.Success? ==> forall c :: c in s.categories ==> c in r.value.categories
    ensures r.Success? ==> forall c :: c in r.value.categories && c !in s.categories ==> c.name in names
    decreases |names|
  {
    if |names| == 0 then Success(s)
    else
      match AddCategoryNamed(s, a, names[0])
      case Failure(e) => Failure(e)
      case Success(s1) =>
        var r := AddCategories(s1, a, names[1..]);
        assert r.Success? ==> r.value.pivots[..|s.pivots|] == r.value.pivots[..|s1.pivots|][..|s.pivots|];
        assert r.Success? ==> forall i :: |s.pivots| <= i < |s1.pivots| ==> r.value.pivots[i] == s1.pivots[i];
        assert forall n :: n in names[1..] ==> n in names;
        r
  }

  lemma AddCategoriesUnfold(s: Store, a: Acronym, names: seq<string>)
    requires |names| > 0 && AddCategoryNamed(s, a, names[0]).Success?
    ensures AddCategories(s, a, names) == AddCategories(AddCategoryNamed(s, a, names[0]).value, a, names[1..])
  {
  }

  lemma UnionStep(before: set<string>, mid: set<string>, after: set<string>, x: string, rest: set<string>)
    requires mid == before + {x} && after == mid + rest
    ensures after == before + ({x} + rest)
  {
  }

  lemma {:induction false} AddCategoriesTags(s: Store, a: Acronym, names: seq<string>)
    requires Valid(s) && a in s.acronyms
    ensures AddCategories(s, a, names).Success?
    ensures Valid(AddCategories(s, a, names).value)
    ensures NamesOf(AddCategories(s, a, names).value, a.id.value) == NamesOf(s, a.id.value) + set n | n in names
    decreases |names|
  {
    if |names| > 0 {
      AddCategoryNamedTags(s, a, names[0]);
      var s1 := AddCategoryNamed(s, a, names[0]).value;
      AddCategoriesUnfold(s, a, names);
      AddCategoriesTags(s1, a, names[1..]);
      ElementsCons(names);
      UnionStep(NamesOf(s, a.id.value), NamesOf(s1, a.id.value), NamesOf(AddCategories(s1, a, names[1..]).value, a.id.value),
                names[0], set n | n in names[1..]);
    } else {
      assert (set n | n in names) == {};
    }
  }

  // ---------------------------------------------------------------------------
  // Detaching by name

  /** Detach each of the given categories in turn. */
  function DetachAll(s: Store, a: Acronym, cs: seq<Category>): (r: Result<Store>)
    ensures r.Success? ==> r.value.(pivots := s.pivots) == s
    ensures r.Success? ==> forall p :: p in r.value.pivots ==> p in s.pivots
    ensures r.Success? ==> forall p :: p in s.pivots && p !in r.value.pivots ==>
              a.id == Some(p.acronymID) && exists c :: c in cs && c.id == Some(p.categoryID)
    decreases |cs|
  {
    if |cs| == 0 then Success(s)
    else
      match Detach(s, a, cs[0])
      case Failure(e) => Failure(e)
      case Success(s1) =>
        assert s1 == DetachIds(s, a.id.value, cs[0].id.value);
        assert cs[0] in cs && forall c :: c in cs[1..] ==> c in cs;
        DetachAll(s1, a, cs[1..])
  }

  /** Detaching a batch removes exactly the pivot rows from the acronym to any of the batch. */
  lemma {:induction false} DetachAllEdges(s: Store, a: Acronym, cs: seq<Category>)
    requires a.id.Some? && forall c :: c in cs ==> c.id.Some?
    ensures DetachAll(s, a, cs).Success?
    ensures forall p :: p in DetachAll(s, a, cs).value.pivots <==>
              p in s.pivots && !(p.acronymID == a.id.value && exists c :: c in cs && c.id == Some(p.categoryID))
    decreases |cs|
  {
    if |cs| > 0 {
      assert cs[0] in cs;
      var s1 := DetachIds(s, a.id.value, cs[0].id.value);
      assert forall c :: c in cs[1..] ==> c in cs;
      DetachAllEdges(s1, a, cs[1..]);
      assert forall c :: c in cs ==> c == cs[0] || c in cs[1..];
    }
  }

  /** The edit form's detach step as the application performs it: the first existing
      category with the name is detached, and any other existing category with the same
      name stays attached. */
  function DetachNamedAsWritten(s: Store, a: Acronym, existing: seq<Category>, name: string): (r: Result<Store>)
    ensures a.id.Some? && (forall c :: c in existing ==> c.id.Some?) ==> r.Success?
    ensures r.Success? ==> r.value.(pivots := s.pivots) == s
    ensures r.Success? ==> forall p :: p in r.value.pivots ==> p in s.pivots
    ensures r.Success? ==> forall p :: p in s.pivots && p !in r.value.pivots ==>
              a.id == Some(p.acronymID) && exists c :: c in existing && c.name == name && c.id == Some(p.categoryID)
    ensures r.Success? ==> forall p, q :: p in s.pivots && p !in r.value.pivots && q in s.pivots && q !in r.value.pivots ==>
              p.categoryID == q.categoryID
  {
    match First(existing, (c: Category) => c.name == name)
    case None => Success(s)
    case Some(c) => Detach(s, a, c)
  }

  /** No two categories tagged on the acronym carry the same name. */
  ghost predicate TagNamesDistinct(s: Store, aid: Id)
  {
    forall c, d :: Tagged(s, aid, c) && Tagged(s, aid, d) && c.name == d.name ==> c == d
  }

  /** No two of the categories carry the same name. */
  ghost predicate DistinctNames(cs: seq<Category>)
  {
    forall c, d :: c in cs && d in cs && c.name == d.name ==> c == d
  }

  /** The detach as written removes at most the name, and never any other name. */
  lemma DetachNamedAsWrittenBounds(s: Store, a: Acronym, existing: seq<Category>, name: string)
    requires CategoriesKeyed(s) && a.id.Some?
    requires forall c :: c in existing ==> c in s.categories
    ensures DetachNamedAsWritten(s, a, existing, name).Success?
    ensures NamesOf(s, a.id.value) - {name} <= NamesOf(DetachNamedAsWritten(s, a, existing, name).value, a.id.value)
    ensures NamesOf(DetachNamedAsWritten(s, a, existing, name).value, a.id.value) <= NamesOf(s, a.id.value)
  {
    var aid := a.id.value;
    var s' := DetachNamedAsWritten(s, a, existing, name).value;
    forall x ensures x in NamesOf(s', aid) ==> x in NamesOf(s, aid) {
      NameIn(s', aid, x);
      NameIn(s, aid, x);
      if x in NamesOf(s', aid) {
        var d :| Tagged(s', aid, d) && d.name == x;
        assert Tagged(s, aid, d);
      }
    }
    forall x | x in NamesOf(s, aid) && x != name ensures x in NamesOf(s', aid) {
      NameIn(s', aid, x);
      NameIn(s, aid, x);
      var d :| Tagged(s, aid, d) && d.name == x;
      var p :| p in s.pivots && p.acronymID == aid && p.categoryID == d.id.value;
      assert forall c :: c in existing && c.name == name && c.id == Some(p.categoryID) ==> c == d;
      assert p in s'.pivots;
      assert Tagged(s', aid, d);
    }
  }

  /** When the existing categories are exactly the tagged ones and their names are distinct,
      the detach as written does remove the name. */
  lemma DetachNamedAsWrittenUntags(s: Store, a: Acronym, existing: seq<Category>, name: string)
    requires CategoriesKeyed(s) && a.id.Some?
    requires forall c :: c in existing ==> c in s.categories
    requires forall c :: Tagged(s, a.id.value, c) ==> c in existing
    requires DistinctNames(existing)
    ensures DetachNamedAsWritten(s, a, existing, name).Success?
    ensures name !in NamesOf(DetachNamedAsWritten(s, a, existing, name).value, a.id.value)
  {
    var aid := a.id.value;
    var s' := DetachNamedAsWritten(s, a, existing, name).value;
    var f := First(existing, (c: Category) => c.name == name);
    NameIn(s', aid, name);
    forall d | Tagged(s', aid, d) ensures d.name != name {
      var p :| p in s'.pivots && p.acronymID == aid && p.categoryID == d.id.value;
      assert Tagged(s, aid, d);
      assert d.name == name ==> f.Some? && f.value == d;
      assert f.Some? ==> s' == DetachIds(s, aid, f.value.id.value);
    }
  }

  /** The detach step as intended: every existing category with the name is detached. */
  function DetachNamed(s: Store, a: Acronym, existing: seq<Category>, name: string): (r: Result<Store>)
    ensures r.Success? ==> r.value.(pivots := s.pivots) == s
    ensures r.Success? ==> forall p :: p in r.value.pivots ==> p in s.pivots
    ensures r.Success? ==> forall p :: p in s.pivots && p !in r.value.pivots ==>
              a.id == Some(p.acronymID) && exists c :: c in existing && c.name == name && c.id == Some(p.categoryID)
  {
    DetachAll(s, a, Filter(existing, (c: Category) => c.name == name))
  }

  /** Which categories stay tagged after detaching by name. */
  lemma DetachNamedTagged(s: Store, a: Acronym, existing: seq<Category>, name: string, d: Category)
    requires CategoriesKeyed(s) && a.id.Some?
    requires forall c :: c in existing ==> c in s.categories
    requires forall c :: Tagged(s, a.id.value, c) && c.name == name ==> c in existing
    ensures DetachNamed(s, a, existing, name).Success?
    ensures Tagged(DetachNamed(s, a, existing, name).value, a.id.value, d) <==>
              Tagged(s, a.id.value, d) && d.name != name
  {
    var aid := a.id.value;
    var cs := Filter(existing, (c: Category) => c.name == name);
    DetachAllEdges(s, a, cs);
    var s' := DetachNamed(s, a, existing, name).value;
    if Tagged(s', aid, d) {
      var p :| p in s'.pivots && p.acronymID == aid && p.categoryID == d.id.value;
      assert Tagged(s, aid, d);
      assert d.name == name ==> d in cs;
    }
    if Tagged(s, aid, d) && d.name != name {
      var p :| p in s.pivots && p.acronymID == aid && p.categoryID == d.id.value;
      assert forall c :: c in cs && c.id == Some(p.categoryID) ==> c == d;
      assert p in s'.pivots;
    }
  }

  /** Detaching by name only removes pivot rows, so the constraints still hold. */
  lemma DetachNamedKeepsValid(s: Store, a: Acronym, existing: seq<Category>, name: string)
    requires Valid(s) && a in s.acronyms
    requires forall c :: c in existing ==> c in s.categories
    ensures DetachNamed(s, a, existing, name).Success?
    ensures Valid(DetachNamed(s, a, existing, name).value)
    ensures forall p :: p in DetachNamed(s, a, existing, name).value.pivots ==> p in s.pivots
    ensures forall p :: p in s.pivots && p.acronymID != a.id.value ==> p in DetachNamed(s, a, existing, name).value.pivots
  {
    var cs := Filter(existing, (c: Category) => c.name == name);
    DetachAllEdges(s, a, cs);
    FewerPivotsKeepValid(s, DetachNamed(s, a, existing, name).value.pivots);
  }

  /** When `existing` holds every category tagged with the name, detaching by name removes
      exactly that name from the acronym's tags. */
  lemma DetachNamedUntags(s: Store, a: Acronym, existing: seq<Category>, name: string)
    requires Valid(s) && a in s.acronyms
    requires forall c :: c in existing ==> c in s.categories
    requires forall c :: Tagged(s, a.id.value, c) && c.name == name ==> c in existing
    ensures DetachNamed(s, a, existing, name).Success?
    ensures NamesOf(DetachNamed(s, a, existing, name).value, a.id.value) == NamesOf(s, a.id.value) - {name}
  {
    var cs := Filter(existing, (c: Category) => c.name == name);
    DetachAllEdges(s, a, cs);
    var s' := DetachNamed(s, a, existing, name).value;
    forall d ensures Tagged(s', a.id.value, d) <==> Tagged(s, a.id.value, d) && d.name != name {
      DetachNamedTagged(s, a, existing, name, d);
    }
    UntagNames(s, s', a.id.value, name);
  }

  /** An acronym tagged with two categories that share a name. */
  const Duplicates: Store :=
    Store([User(Some(0), "Ann", "ann", "digest")],
          [Acronym(Some(1), "OMG", "Oh My God", 0)],
          [Category(Some(2), "fun"), Category(Some(3), "fun")],
          [Pivot(Some(4), 1, 2), Pivot(Some(5), 1, 3)],
          [], 6)

  lemma DuplicatesValid()
    ensures Valid(Duplicates)
  {
    var s := Duplicates;
    assert forall u :: u in s.users ==> u == s.users[0];
    assert forall a :: a in s.acronyms ==> a == s.acronyms[0];
    assert forall p :: p in s.pivots ==> p == s.pivots[0] || p == s.pivots[1];
    assert s.users[0].id == Some(s.acronyms[0].userID);
  }

  /** On `Duplicates`, detaching "fun" as written leaves the acronym tagged "fun". */
  lemma AsWrittenDetachKeepsDuplicateName()
    ensures "fun" in NamesOf(Duplicates, 1)
    ensures DetachNamedAsWritten(Duplicates, Duplicates.acronyms[0], CategoriesOf(Duplicates, 1), "fun").Success?
    ensures "fun" in NamesOf(DetachNamedAsWritten(Duplicates, Duplicates.acronyms[0], CategoriesOf(Duplicates, 1), "fun").value, 1)
  {
    var s := Duplicates;
    var c2, c3 := s.categories[0], s.categories[1];
    assert s.pivots[0] in s.pivots && s.pivots[1] in s.pivots;
    assert Tagged(s, 1, c2) && Tagged(s, 1, c3);
    NameIn(s, 1, "fun");
    var existing := CategoriesOf(s, 1);
    assert c2 in existing;
    var f := First(existing, (c: Category) => c.name == "fun").value;
    assert f in s.categories;
    assert s.categories == [c2, c3];
    var written := DetachIds(s, 1, f.id.value);
    var other := if f == c2 then c3 else c2;
    assert Tagged(written, 1, other);
    NameIn(written, 1, "fun");
  }

  /** On the same store the intended detach removes the name. */
  lemma DetachNamedRemovesDuplicateName()
    ensures DetachNamed(Duplicates, Duplicates.acronyms[0], CategoriesOf(Duplicates, 1), "fun").Success?
    ensures "fun" !in NamesOf(DetachNamed(Duplicates, Duplicates.acronyms[0], CategoriesOf(Duplicates, 1), "fun").value, 1)
  {
    DuplicatesValid();
    DetachNamedUntags(Duplicates, Duplicates.acronyms[0], CategoriesOf(Duplicates, 1), "fun");
  }

  /** An acronym tagged with the second of two categories named "slang". */
  const Slang: Store :=
    Store([User(Some(0), "Ann", "ann", "digest")],
          [Acronym(Some(1), "OMG", "Oh My God", 0)],
          [Category(Some(5), "slang"), Category(Some(7), "slang")],
          [Pivot(Some(8), 1, 7)],
          [], 9)

  /** On `Slang`, attaching the already tagged name "slang" again adds a row to category 5,
      a row that attaches no name outside the acronym's tags. */
  lemma ReattachKeptNameAddsRow()
    ensures "slang" in NamesOf(Slang, 1)
    ensures AddCategoryNamed(Slang, Slang.acronyms[0], "slang").Success?
    ensures !AttachesOnly(Slang, AddCategoryNamed(Slang, Slang.acronyms[0], "slang").value, {"slang"} - NamesOf(Slang, 1))
  {
    var s := Slang;
    assert s.pivots[0] in s.pivots;
    assert Tagged(s, 1, s.categories[1]);
    NameIn(s, 1, "slang");
    var r := AddCategoryNamed(s, s.acronyms[0], "slang").value;
    var p := r.pivots[|s.pivots|];
    assert p.id == Some(9);
    assert p in r.pivots && p !in s.pivots;
  }

  // ---------------------------------------------------------------------------
  // Reconciliation

  /** The names to attach and the names to detach. */
  function ReconciliationPlan(existing: set<string>, submitted: set<string>): (plan: (set<string>, set<string>))
    ensures plan.0 == submitted - existing && plan.1 == existing - submitted
    ensures plan.0 !! plan.1
    ensures (existing * submitted) !! (plan.0 + plan.1)
    ensures (existing - plan.1) + plan.0 == submitted
  {
    (submitted - existing, existing - submitted)
  }

  lemma RemoveOne(names: set<string>, all: set<string>, left: set<string>, n: string)
    requires n in left && left <= all
    ensures names - (all - left) - {n} == names - (all - (left - {n}))
  {
  }

  lemma AddOne(names: set<string>, all: set<string>, left: set<string>, n: string)
    requires n in left && left <= all
    ensures names + (all - left) + {n} == names + (all - (left - {n}))
  {
  }

  /** Every row `r` holds after the rows `before` runs from acronym `aid` to a category of `r`
      carrying one of `names`. */
  ghost predicate AppendedNamed(before: seq<Pivot>, r: Store, aid: Id, names: set<string>)
  {
    forall i :: |before| <= i < |r.pivots| ==>
      && r.pivots[i].acronymID == aid
      && exists c :: c in r.categories && c.id == Some(r.pivots[i].categoryID) && c.name in names
  }

  /** Attaching one more name of the batch keeps `AppendedNamed`. */
  lemma AttachStep(before: seq<Pivot>, cur: Store, a: Acronym, names: set<string>, n: string)
    requires n in names && a.id.Some? && AddCategoryNamed(cur, a, n).Success?
    requires |cur.pivots| >= |before| && AppendedNamed(before, cur, a.id.value, names)
    ensures AppendedNamed(before, AddCategoryNamed(cur, a, n).value, a.id.value, names)
  {
    var next := AddCategoryNamed(cur, a, n).value;
    forall i | |before| <= i < |next.pivots|
      ensures next.pivots[i].acronymID == a.id.value
      ensures exists c :: c in next.categories && c.id == Some(next.pivots[i].categoryID) && c.name in names
    {
      if i < |cur.pivots| {
        assert next.pivots[i] == next.pivots[..|cur.pivots|][i];
        var c :| c in cur.categories && c.id == Some(cur.pivots[i].categoryID) && c.name in names;
        assert c in next.categories;
      }
    }
  }

  /** Every row `r` holds and `s` did not links a category of `r` carrying one of `names`. */
  ghost predicate AttachesOnly(s: Store, r: Store, names: set<string>)
  {
    forall p :: p in r.pivots && p !in s.pivots ==>
      exists c :: c in r.categories && c.id == Some(p.categoryID) && c.name in names
  }

  /** Removals followed by appended named rows add only rows carrying those names. */
  lemma AddedRowsNamed(s: Store, s1: Store, r: Store, aid: Id, names: set<string>)
    requires forall p :: p in s1.pivots ==> p in s.pivots
    requires |r.pivots| >= |s1.pivots| && r.pivots[..|s1.pivots|] == s1.pivots
    requires AppendedNamed(s1.pivots, r, aid, names)
    ensures AttachesOnly(s, r, names)
  {
    forall j | 0 <= j < |s1.pivots| ensures r.pivots[j] in s.pivots {
      assert r.pivots[j] == r.pivots[..|s1.pivots|][j];
    }
    forall p | p in r.pivots && p !in s.pivots
      ensures exists c :: c in r.categories && c.id == Some(p.categoryID) && c.name in names
    {
      var i :| 0 <= i < |r.pivots| && r.pivots[i] == p;
    }
  }

  /** The attach loop of the edit form: every name in the batch is attached. */
  method AttachNames(s: Store, a: Acronym, names: set<string>) returns (r: Store)
    requires Valid(s) && a in s.acronyms
    ensures Valid(r)
    ensures NamesOf(r, a.id.value) == NamesOf(s, a.id.value) + names
    ensures r.users == s.users && r.acronyms == s.acronyms && r.tokens == s.tokens
    ensures forall p: Pivot :: p.acronymID != a.id.value ==> (p in r.pivots <==> p in s.pivots)
    ensures forall c :: c in s.categories ==> c in r.categories
    ensures forall c :: c in r.categories && c !in s.categories ==> c.name in names
    ensures |r.pivots| >= |s.pivots| && r.pivots[..|s.pivots|] == s.pivots
    ensures AppendedNamed(s.pivots, r, a.id.value, names)
  {
    var aid := a.id.value;
    var cur := s;
    var add := names;
    while add != {}
      invariant Valid(cur) && a in cur.acronyms
      invariant cur.users == s.users && cur.acronyms == s.acronyms && cur.tokens == s.tokens
      invariant |cur.pivots| >= |s.pivots| && cur.pivots[..|s.pivots|] == s.pivots
      invariant AppendedNamed(s.pivots, cur, aid, names)
      invariant add <= names
      invariant NamesOf(cur, aid) == NamesOf(s, aid) + (names - add)
      invariant forall p: Pivot :: p.acronymID != aid ==> (p in cur.pivots <==> p in s.pivots)
      invariant forall c :: c in s.categories ==> c in cur.categories
      invariant forall c :: c in cur.categories && c !in s.categories ==> c.name in names
      decreases add
    {
      var n :| n in add;
      AddCategoryNamedTags(cur, a, n);
      AddCategoryNamedKeepsOthers(cur, a, n);
      var next := AddCategoryNamed(cur, a, n).value;
      PrefixTrans(s.pivots, cur.pivots, next.pivots);
      AttachStep(s.pivots, cur, a, names, n);
      assert NamesOf(next, aid) == NamesOf(s, aid) + (names - (add - {n})) by {
        AddOne(NamesOf(s, aid), names, add, n);
      }
      cur, add := next, add - {n};
    }
    r := cur;
  }

  /** The detach loop with the intended step: every name in the batch leaves the tags. */
  method DetachNames(s: Store, a: Acronym, existing: seq<Category>, names: set<string>) returns (r: Store)
    requires Valid(s) && a in s.acronyms
    requires forall c :: c in existing ==> c in s.categories
    requires forall c :: Tagged(s, a.id.value, c) ==> c in existing
    ensures Valid(r) && r.(pivots := s.pivots) == s
    ensures NamesOf(r, a.id.value) == NamesOf(s, a.id.value) - names
    ensures forall p: Pivot :: p.acronymID != a.id.value ==> (p in r.pivots <==> p in s.pivots)
    ensures forall p :: p in r.pivots ==> p in s.pivots
    ensures forall p :: p in s.pivots && p !in r.pivots ==> Dropped(existing, names, p)
  {
    var aid := a.id.value;
    var cur := s;
    var rem := names;
    while rem != {}
      invariant Valid(cur) && a in cur.acronyms
      invariant cur.(pivots := s.pivots) == s
      invariant forall p :: p in cur.pivots ==> p in s.pivots
      invariant forall p :: p in s.pivots && p !in cur.pivots ==> Dropped(existing, names, p)
      invariant forall c :: Tagged(cur, aid, c) ==> c in existing
      invariant rem <= names
      invariant NamesOf(cur, aid) == NamesOf(s, aid) - (names - rem)
      invariant forall p: Pivot :: p.acronymID != aid ==> (p in cur.pivots <==> p in s.pivots)
      decreases rem
    {
      var n :| n in rem;
      DetachNamedKeepsValid(cur, a, existing, n);
      DetachNamedUntags(cur, a, existing, n);
      var next := DetachNamed(cur, a, existing, n).value;
      DropStep(s.pivots, cur.pivots, next.pivots, existing, names, n);
      assert forall c :: Tagged(next, aid, c) ==> Tagged(cur, aid, c);
      assert NamesOf(next, aid) == NamesOf(s, aid) - (names - (rem - {n})) by {
        RemoveOne(NamesOf(s, aid), names, rem, n);
      }
      cur, rem := next, rem - {n};
    }
    r := cur;
  }

  /** The detach loop as written: each name detaches the first existing category carrying it.
      Every other name stays; the batch's names all leave when the existing categories carry
      distinct names. */
  method DetachNamesAsWritten(s: Store, a: Acronym, existing: seq<Category>, names: set<string>) returns (r: Store)
    requires Valid(s) && a in s.acronyms
    requires forall c :: c in existing ==> c in s.categories
    requires forall c :: Tagged(s, a.id.value, c) ==> c in existing
    ensures Valid(r) && r.(pivots := s.pivots) == s
    ensures NamesOf(s, a.id.value) - names <= NamesOf(r, a.id.value) <= NamesOf(s, a.id.value)
    ensures DistinctNames(existing) ==> NamesOf(r, a.id.value) == NamesOf(s, a.id.value) - names
    ensures forall p: Pivot :: p.acronymID != a.id.value ==> (p in r.pivots <==> p in s.pivots)
    ensures forall p :: p in r.pivots ==> p in s.pivots
    ensures forall p :: p in s.pivots && p !in r.pivots ==> Dropped(existing, names, p)
  {
    var cur := s;
    var rem := names;
    while rem != {}
      invariant AsWrittenProgress(s, cur, a, existing, names, rem)
      decreases rem
    {
      var n :| n in rem;
      var next := DetachNamedAsWritten(cur, a, existing, n).value;
      AsWrittenStep(s, cur, a, existing, names, rem, n);
      cur, rem := next, rem - {n};
    }
    r := cur;
  }

  /** Pivot row `p` links a category of `existing` whose name is among `names`. */
  ghost predicate Dropped(existing: seq<Category>, names: set<string>, p: Pivot)
  {
    exists c :: c in existing && c.name in names && c.id == Some(p.categoryID)
  }

  /** One detach step for name `n` of the batch: the rows left are still a subset of the
      original ones, and every row gone so far is `Dropped` by the batch. */
  lemma DropStep(orig: seq<Pivot>, cur: seq<Pivot>, next: seq<Pivot>, existing: seq<Category>, names: set<string>, n: string)
    requires n in names
    requires forall p :: p in cur ==> p in orig
    requires forall p :: p in orig && p !in cur ==> Dropped(existing, names, p)
    requires forall p :: p in next ==> p in cur
    requires forall p :: p in cur && p !in next ==> exists c :: c in existing && c.name == n && c.id == Some(p.categoryID)
    ensures forall p :: p in next ==> p in orig
    ensures forall p :: p in orig && p !in next ==> Dropped(existing, names, p)
  {
  }

  /** Being a prefix is transitive. */
  lemma PrefixTrans(a: seq<Pivot>, b: seq<Pivot>, c: seq<Pivot>)
    requires |b| >= |a| && b[..|a|] == a
    requires |c| >= |b| && c[..|b|] == b
    ensures |c| >= |a| && c[..|a|] == a
  {
    assert c[..|a|] == c[..|b|][..|a|];
  }

  /** A row whose category keeps its name survives a detach of `names` followed by an attach. */
  lemma KeptUnlessDropped(s: Store, s1: Store, r: Store, existing: seq<Category>, names: set<string>)
    requires CategoriesKeyed(s) && forall c :: c in existing ==> c in s.categories
    requires forall p :: p in s.pivots && p !in s1.pivots ==> Dropped(existing, names, p)
    requires |r.pivots| >= |s1.pivots| && r.pivots[..|s1.pivots|] == s1.pivots
    ensures forall p :: p in s.pivots && (exists c :: c in s.categories && c.id == Some(p.categoryID) && c.name !in names) ==>
              p in r.pivots
  {
    forall p | p in s.pivots && (exists c :: c in s.categories && c.id == Some(p.categoryID) && c.name !in names)
      ensures p in r.pivots
    {
      var c :| c in s.categories && c.id == Some(p.categoryID) && c.name !in names;
      assert !Dropped(existing, names, p) by {
        forall d | d in existing && d.id == Some(p.categoryID) ensures d.name !in names {
          assert d == c;
        }
      }
      var i :| 0 <= i < |s1.pivots| && s1.pivots[i] == p;
      assert r.pivots[i] == p;
    }
  }

  /** The loop invariant of the detach loop as written, after the names outside `rem` are done. */
  ghost predicate AsWrittenProgress(s: Store, cur: Store, a: Acronym, existing: seq<Category>, names: set<string>, rem: set<string>)
    requires a.id.Some?
  {
    var aid := a.id.value;
    && Valid(cur) && a in cur.acronyms
    && (forall c :: c in existing ==> c in cur.categories)
    && cur.(pivots := s.pivots) == s
    && (forall p :: p in cur.pivots ==> p in s.pivots)
    && (forall p :: p in s.pivots && p !in cur.pivots ==> Dropped(existing, names, p))
    && (forall c :: Tagged(cur, aid, c) ==> c in existing)
    && rem <= names
    && NamesOf(s, aid) - (names - rem) <= NamesOf(cur, aid) <= NamesOf(s, aid)
    && (DistinctNames(existing) ==> NamesOf(cur, aid) == NamesOf(s, aid) - (names - rem))
    && (forall p: Pivot :: p.acronymID != aid ==> (p in cur.pivots <==> p in s.pivots))
  }

  /** One turn of the detach loop as written keeps its invariant. */
  lemma AsWrittenStep(s: Store, cur: Store, a: Acronym, existing: seq<Category>, names: set<string>, rem: set<string>, n: string)
    requires a.id.Some? && n in rem
    requires AsWrittenProgress(s, cur, a, existing, names, rem)
    ensures DetachNamedAsWritten(cur, a, existing, n).Success?
    ensures AsWrittenProgress(s, DetachNamedAsWritten(cur, a, existing, n).value, a, existing, names, rem - {n})
  {
    var aid := a.id.value;
    DetachNamedAsWrittenBounds(cur, a, existing, n);
    if DistinctNames(existing) {
      DetachNamedAsWrittenUntags(cur, a, existing, n);
    }
    var next := DetachNamedAsWritten(cur, a, existing, n).value;
    DropStep(s.pivots, cur.pivots, next.pivots, existing, names, n);
    FewerPivotsKeepValid(cur, next.pivots);
    assert next == cur.(pivots := next.pivots);
    assert forall c :: Tagged(next, aid, c) ==> Tagged(cur, aid, c);
    ShrinkOne(NamesOf(s, aid), NamesOf(cur, aid), NamesOf(next, aid), names, rem, n);
  }

  lemma ShrinkOne(all: set<string>, cur: set<string>, next: set<string>, names: set<string>, left: set<string>, n: string)
    requires n in left && left <= names
    requires all - (names - left) <= cur && cur - {n} <= next
    ensures all - (names - (left - {n})) <= next
  {
  }

  /** Apply a plan to a stored acronym with the intended detach: detach every dropped name,
      then attach every new one. `existing` is the category list the plan was computed from. */
  method ApplyPlan(s: Store, a: Acronym, existing: seq<Category>, toAdd: set<string>, toRemove: set<string>)
    returns (r: Store)
    requires Valid(s) && a in s.acronyms
    requires forall c :: c in existing ==> c in s.categories
    requires forall c :: Tagged(s, a.id.value, c) ==> c in existing
    ensures Valid(r)
    ensures NamesOf(r, a.id.value) == (NamesOf(s, a.id.value) - toRemove) + toAdd
    ensures r.users == s.users && r.acronyms == s.acronyms && r.tokens == s.tokens
    ensures forall p: Pivot :: p.acronymID != a.id.value ==> (p in r.pivots <==> p in s.pivots)
    ensures forall c :: c in s.categories ==> c in r.categories
    ensures forall c :: c in r.categories && c !in s.categories ==> c.name in toAdd
    ensures forall p :: p in s.pivots && (exists c :: c in s.categories && c.id == Some(p.categoryID) && c.name !in toRemove) ==>
              p in r.pivots
    ensures AttachesOnly(s, r, toAdd)
  {
    var s1 := DetachNames(s, a, existing, toRemove);
    r := AttachNames(s1, a, toAdd);
    AddedRowsNamed(s, s1, r, a.id.value, toAdd);
    KeptUnlessDropped(s, s1, r, existing, toRemove);
  }

  /** Apply a plan as the edit handler does: the detach step is the one as written. */
  method ApplyPlanAsWritten(s: Store, a: Acronym, existing: seq<Category>, toAdd: set<string>, toRemove: set<string>)
    returns (r: Store)
    requires Valid(s) && a in s.acronyms
    requires forall c :: c in existing ==> c in s.categories
    requires forall c :: Tagged(s, a.id.value, c) ==> c in existing
    ensures Valid(r)
    ensures (NamesOf(s, a.id.value) - toRemove) + toAdd <= NamesOf(r, a.id.value) <= NamesOf(s, a.id.value) + toAdd
    ensures DistinctNames(existing) ==> NamesOf(r, a.id.value) == (NamesOf(s, a.id.value) - toRemove) + toAdd
    ensures r.users == s.users && r.acronyms == s.acronyms && r.tokens == s.tokens
    ensures forall p: Pivot :: p.acronymID != a.id.value ==> (p in r.pivots <==> p in s.pivots)
    ensures forall c :: c in s.categories ==> c in r.categories
    ensures forall c :: c in r.categories && c !in s.categories ==> c.name in toAdd
    ensures forall p :: p in s.pivots && (exists c :: c in s.categories && c.id == Some(p.categoryID) && c.name !in toRemove) ==>
              p in r.pivots
    ensures AttachesOnly(s, r, toAdd)
  {
    var s1 := DetachNamesAsWritten(s, a, existing, toRemove);
    r := AttachNames(s1, a, toAdd);
    AddedRowsNamed(s, s1, r, a.id.value, toAdd);
    KeptUnlessDropped(s, s1, r, existing, toRemove);
  }
}

=== FILE: common.dfy ===
/**
 Shared vocabulary of the model: row identifiers, optional values, the HTTP
 statuses the handlers answer with, and the result of a handler that can
 abort.
 */
module Common {

  /** Primary keys. The database hands them out from one counter (see `Database.Store`). */
  type Id = nat

  /** Swift's `Optional`. */
  datatype Option<+T> = None | Some(value: T)

  /** The HTTP statuses the handlers produce, either as a reply or through `Abort`. */
  datatype Status =
    | OK
    | Created
    | NoContent
    | BadRequest
    | Unauthorized
    | NotFound
    | InternalServerError

  /** A handler's answer: a value (sent with `OK` unless the value is itself a status), or the abort status. */
  datatype Result<+T> = Success(value: T) | Failure(status: Status)
}

=== FILE: database.dfy ===
/**
 The database behind the application, as an immutable value: one sequence of
 rows per table, in insertion order, and the counter the database draws new
 ids from. The schema constraints the migrations declare (unique usernames,
 the acronym-to-user foreign key, the pivot-to-acronym foreign key with
 cascading delete) are stated by `Valid`, and every mutation below is proved
 to keep it.
 */
module Database {
  import opened Common
  import opened Seqs
  import opened UserModel
  import opened AcronymModel
  import opened CategoryModel
  import opened PivotModel
  import opened TokenModel

  datatype Store = Store(
    users: seq<User>,
    acronyms: seq<Acronym>,
    categories: seq<Category>,
    pivots: seq<Pivot>,
    tokens: seq<Token>,
    nextId: Id)

  /** What a handler leaves behind: the database after it ran, and its answer. */
  datatype Reply<+T> = Reply(store: Store, result: Result<T>)

  /** The database after the table migrations, before the `AdminUser` seed. */
  const Empty: Store := Store([], [], [], [], [], 0)

  // ---------------------------------------------------------------------------
  // Schema constraints

  /** Every saved user has an id drawn from the counter, and ids identify rows. */
  ghost predicate UsersKeyed(s: Store)
  {
    && (forall u :: u in s.users ==> u.id.Some? && u.id.value < s.nextId)
    && (forall u, v :: u in s.users && v in s.users && u.id == v.id ==> u == v)
  }

  /** `builder.unique(on: \.username)`: no two stored users share a username. */
  ghost predicate UsernamesUnique(s: Store)
  {
    forall u, v :: u in s.users && v in s.users && u.username == v.username ==> u == v
  }

  ghost predicate AcronymsKeyed(s: Store)
  {
    && (forall a :: a in s.acronyms ==> a.id.Some? && a.id.value < s.nextId)
    && (forall a, b :: a in s.acronyms && b in s.acronyms && a.id == b.id ==> a == b)
  }

  ghost predicate CategoriesKeyed(s: Store)
  {
    && (forall c :: c in s.categories ==> c.id.Some? && c.id.value < s.nextId)
    && (forall c, d :: c in s.categories && d in s.categories && c.id == d.id ==> c == d)
  }

  ghost predicate PivotsKeyed(s: Store)
  {
    forall p :: p in s.pivots ==> p.id.Some? && p.id.value < s.nextId
  }

  /** `builder.reference(from: \.userID, to: \User.id)`: every acronym has its owner in the store. */
  ghost predicate AcronymsOwned(s: Store)
  {
    forall a :: a in s.acronyms ==> exists u :: u in s.users && u.id == Some(a.userID)
  }

  /** `builder.reference(from: \.acronymID, to: \Acronym.id, onDelete: .cascade)`:
      every pivot row points at a stored acronym. */
  ghost predicate PivotsReferenceAcronyms(s: Store)
  {
    forall p :: p in s.pivots ==> exists a :: a in s.acronyms && a.id == Some(p.acronymID)
  }

  ghost predicate Valid(s: Store)
  {
    && UsersKeyed(s)
    && UsernamesUnique(s)
    && AcronymsKeyed(s)
    && CategoriesKeyed(s)
    && PivotsKeyed(s)
    && AcronymsOwned(s)
    && PivotsReferenceAcronyms(s)
  }

  lemma EmptyIsValid()
    ensures Valid(Empty)
  {
  }

  // ---------------------------------------------------------------------------
  // Lookups (`req.parameters.next(Model.self)` and filtered `first()` queries)

  function UserById(s: Store, k: Id): (r: Option<User>)
    ensures r.Some? ==> r.value in s.users && r.value.id == Some(k)
    ensures r.None? <==> forall u :: u in s.users ==> u.id != Some(k)
  {
    First(s.users, (u: User) => u.id == Some(k))
  }

  function UserByName(s: Store, username: string): (r: Option<User>)
    ensures r.Some? ==> r.value in s.users && r.value.username == username
    ensures r.None? <==> forall u :: u in s.users ==> u.username != username
  {
    First(s.users, (u: User) => u.username == username)
  }

  function AcronymById(s: Store, k: Id): (r: Option<Acronym>)
    ensures r.Some? ==> r.value in s.acronyms && r.value.id == Some(k)
    ensures r.None? <==> forall a :: a in s.acronyms ==> a.id != Some(k)
  {
    First(s.acronyms, (a: Acronym) => a.id == Some(k))
  }

  function CategoryById(s: Store, k: Id): (r: Option<Category>)
    ensures r.Some? ==> r.value in s.categories && r.value.id == Some(k)
    ensures r.None? <==> forall c :: c in s.categories ==> c.id != Some(k)
  {
    First(s.categories, (c: Category) => c.id == Some(k))
  }

  function CategoryByName(s: Store, name: string): (r: Option<Category>)
    ensures r.Some? ==> r.value in s.categories && r.value.name == name
    ensures r.None? <==> forall c :: c in s.categories ==> c.name != name
  {
    First(s.categories, (c: Category) => c.name == name)
  }

  /** On a valid store an id lookup finds the one row carrying that id. */
  lemma UserByIdFindsRow(s: Store, u: User)
    requires UsersKeyed(s) && u in s.users
    ensures UserById(s, u.id.value) == Some(u)
  {
  }

  lemma AcronymByIdFindsRow(s: Store, a: Acronym)
    requires AcronymsKeyed(s) && a in s.acronyms
    ensures AcronymById(s, a.id.value) == Some(a)
  {
  }

  lemma CategoryByIdFindsRow(s: Store, c: Category)
    requires CategoriesKeyed(s) && c in s.categories
    ensures CategoryById(s, c.id.value) == Some(c)
  {
  }

  // ---------------------------------------------------------------------------
  // Relations

  /** `acronym.user`: the user whose id is the acronym's `userID`. */
  function ParentOf(s: Store, a: Acronym): (r: Option<User>)
    ensures r.Some? ==> r.value in s.users && r.value.id == Some(a.userID)
    ensures r.None? <==> forall u :: u in s.users ==> u.id != Some(a.userID)
  {
    UserById(s, a.userID)
  }

  /** `user.acronyms`: the acronyms whose `userID` is the user's id. */
  function ChildrenOf(s: Store, uid: Id): (r: seq<Acronym>)
    ensures forall a :: a in r ==> a in s.acronyms && a.userID == uid
    ensures forall a :: a in s.acronyms && a.userID == uid ==> a in r
  {
    Filter(s.acronyms, (a: Acronym) => a.userID == uid)
  }

  /** `acronym.categories`: the categories some pivot row links to acronym `aid`. */
  function CategoriesOf(s: Store, aid: Id): (r: seq<Category>)
    ensures forall c :: c in r ==> c in s.categories && c.id.Some? && HasEdge(s.pivots, aid, c.id.value)
    ensures forall c :: c in s.categories && c.id.Some? && HasEdge(s.pivots, aid, c.id.value) ==> c in r
  {
    Filter(s.categories, (c: Category) => c.id.Some? && HasEdge(s.pivots, aid, c.id.value))
  }

  /** `category.acronyms`: the acronyms some pivot row links to category `cid`. */
  function AcronymsOf(s: Store, cid: Id): (r: seq<Acronym>)
    ensures forall a :: a in r ==> a in s.acronyms && a.id.Some? && HasEdge(s.pivots, a.id.value, cid)
    ensures forall a :: a in s.acronyms && a.id.Some? && HasEdge(s.pivots, a.id.value, cid) ==> a in r
  {
    Filter(s.acronyms, (a: Acronym) => a.id.Some? && HasEdge(s.pivots, a.id.value, cid))
  }

  /** The names of the categories an acronym is tagged with. */
  function NamesOf(s: Store, aid: Id): set<string>
  {
    set c | c in CategoriesOf(s, aid) :: c.name
  }

  /** The two sides of the sibling relation agree: `a` is listed for `c` exactly when `c` is listed for `a`. */
  lemma SiblingsSymmetric(s: Store, a: Acronym, c: Category)
    requires a in s.acronyms && c in s.categories && a.id.Some? && c.id.Some?
    ensures a in AcronymsOf(s, c.id.value) <==> c in CategoriesOf(s, a.id.value)
  {
  }

  /** Parent and children agree: an acronym is among a user's children exactly when that user is its parent. */
  lemma ParentChildrenAgree(s: Store, a: Acronym, u: User)
    requires UsersKeyed(s) && a in s.acronyms && u in s.users
    ensures a in ChildrenOf(s, u.id.value) <==> ParentOf(s, a) == Some(u)
  {
  }

  /** On a valid store every acronym has its parent. */
  lemma ParentExists(s: Store, a: Acronym)
    requires Valid(s) && a in s.acronyms
    ensures ParentOf(s, a).Some?
  {
    var u :| u in s.users && u.id == Some(a.userID);
  }

  // ---------------------------------------------------------------------------
  // Mutations (`save`, `delete`, `attach`, `detach`)

  /** `save` of a new model: the row takes the next id, keeps every other field, and is
      appended to its table; no other table changes. */
  function InsertUser(s: Store, u: User): (r: (Store, User))
    ensures r.1.id == Some(s.nextId) && r.1.(id := u.id) == u
    ensures r.0.users == s.users + [r.1]
    ensures r.0 == s.(users := r.0.users, nextId := s.nextId + 1)
  {
    var saved := u.(id := Some(s.nextId));
    (s.(users := s.users + [saved], nextId := s.nextId + 1), saved)
  }

  function InsertAcronym(s: Store, a: Acronym): (r: (Store, Acronym))
    ensures r.1.id == Some(s.nextId) && r.1.(id := a.id) == a
    ensures r.0.acronyms == s.acronyms + [r.1]
    ensures r.0 == s.(acronyms := r.0.acronyms, nextId := s.nextId + 1)
  {
    var saved := a.(id := Some(s.nextId));
    (s.(acronyms := s.acronyms + [saved], nextId := s.nextId + 1), saved)
  }

  function InsertCategory(s: Store, c: Category): (r: (Store, Category))
    ensures r.1.id == Some(s.nextId) && r.1.(id := c.id) == c
    ensures r.0.categories == s.categories + [r.1]
    ensures r.0 == s.(categories := r.0.categories, nextId := s.nextId + 1)
  {
    var saved := c.(id := Some(s.nextId));
    (s.(categories := s.categories + [saved], nextId := s.nextId + 1), saved)
  }

  function InsertPivot(s: Store, p: Pivot): (r: Store)
    ensures |r.pivots| == |s.pivots| + 1 && r.pivots[..|s.pivots|] == s.pivots
    ensures var saved := r.pivots[|s.pivots|];
            saved.id == Some(s.nextId) && saved.acronymID == p.acronymID && saved.categoryID == p.categoryID
    ensures r == s.(pivots := r.pivots, nextId := s.nextId + 1)
  {
    s.(pivots := s.pivots + [p.(id := Some(s.nextId))], nextId := s.nextId + 1)
  }

  /** `save` of an acronym that already has an id: its row is overwritten in place. */
  function UpdateAcronym(s: Store, a: Acronym): (r: Store)
    ensures r.users == s.users && r.categories == s.categories && r.pivots == s.pivots
    ensures r.tokens == s.tokens && r.nextId == s.nextId
    ensures |r.acronyms| == |s.acronyms|
    ensures forall i :: 0 <= i < |s.acronyms| ==>
              r.acronyms[i] == (if s.acronyms[i].id == a.id then a else s.acronyms[i])
  {
    s.(acronyms := seq(|s.acronyms|, i requires 0 <= i < |s.acronyms| =>
                         if s.acronyms[i].id == a.id then a else s.acronyms[i]))
  }

  /** `acronym.delete`: the row goes, and the pivot rows that reference it go with it (cascade). */
  function DeleteAcronym(s: Store, k: Id): (r: Store)
    ensures forall a :: a in r.acronyms <==> a in s.acronyms && a.id != Some(k)
    ensures forall p :: p in r.pivots <==> p in s.pivots && p.acronymID != k
    ensures r.users == s.users && r.categories == s.categories && r.tokens == s.tokens && r.nextId == s.nextId
  {
    s.(acronyms := Filter(s.acronyms, (a: Acronym) => a.id != Some(k)),
       pivots := Filter(s.pivots, (p: Pivot) => p.acronymID != k))
  }

  /** Deleting a category row. No handler does this; it shows that the schema
      declares no cascade on `categoryID`, so the pivot rows are left in place. */
  function DeleteCategory(s: Store, k: Id): (r: Store)
    ensures forall c :: c in r.categories <==> c in s.categories && c.id != Some(k)
    ensures r == s.(categories := r.categories)
  {
    s.(categories := Filter(s.categories, (c: Category) => c.id != Some(k)))
  }

  /** `acronym.categories.attach(category)`: build the pivot from the two models and save it.
      No check for an existing edge is made. */
  function Attach(s: Store, a: Acronym, c: Category): (r: Result<Store>)
    ensures r.Success? <==> a.id.Some? && c.id.Some?
    ensures r.Failure? ==> r.status == InternalServerError
    ensures r.Success? ==> |r.value.pivots| == |s.pivots| + 1 && r.value.pivots[..|s.pivots|] == s.pivots
    ensures r.Success? ==> r.value.pivots[|s.pivots|].acronymID == a.id.value &&
                           r.value.pivots[|s.pivots|].categoryID == c.id.value
    ensures r.Success? ==> forall x, y :: HasEdge(r.value.pivots, x, y) <==>
                                         HasEdge(s.pivots, x, y) || (x == a.id.value && y == c.id.value)
    ensures r.Success? ==> r.value.(pivots := s.pivots, nextId := s.nextId) == s
  {
    match NewPivot(a, c)
    case Failure(e) => Failure(e)
    case Success(p) =>
      var s' := InsertPivot(s, p);
      assert forall q :: q in s'.pivots <==> q in s.pivots || q == s'.pivots[|s.pivots|];
      Success(s')
  }

  /** `acronym.categories.detach(category)`: delete every pivot row linking the two. */
  function Detach(s: Store, a: Acronym, c: Category): (r: Result<Store>)
    ensures r.Success? <==> a.id.Some? && c.id.Some?
    ensures r.Failure? ==> r.status == InternalServerError
    ensures r.Success? ==> forall x, y :: HasEdge(r.value.pivots, x, y) <==>
                                         HasEdge(s.pivots, x, y) && !(x == a.id.value && y == c.id.value)
    ensures r.Success? ==> r.value.(pivots := s.pivots) == s
  {
    if a.id.None? || c.id.None? then Failure(InternalServerError)
    else Success(DetachIds(s, a.id.value, c.id.value))
  }

  function DetachIds(s: Store, aid: Id, cid: Id): (r: Store)
    ensures forall p :: p in r.pivots <==> p in s.pivots && !(p.acronymID == aid && p.categoryID == cid)
    ensures r.(pivots := s.pivots) == s
  {
    s.(pivots := Filter(s.pivots, (p: Pivot) => !(p.acronymID == aid && p.categoryID == cid)))
  }

  /** The `AdminUser` migration: save the seed account. */
  function SeedAdmin(s: Store, hash: Hasher): (r: Store)
    ensures |r.users| == |s.users| + 1 && r.users[..|s.users|] == s.users
    ensures var admin := r.users[|s.users|];
            admin.id == Some(s.nextId) && admin.name == "Admin" && admin.username == "Admin" &&
            admin.password == hash("password")
    ensures r == s.(users := r.users, nextId := s.nextId + 1)
  {
    InsertUser(s, AdminUser(hash)).0
  }

  // ---------------------------------------------------------------------------
  // The constraints survive every mutation

  lemma InsertUserKeepsValid(s: Store, u: User)
    requires Valid(s)
    requires forall v :: v in s.users ==> v.username != u.username
    ensures Valid(InsertUser(s, u).0)
  {
    var (s', saved) := InsertUser(s, u);
    assert forall v :: v in s'.users <==> v in s.users || v == saved;
    forall a | a in s'.acronyms
      ensures exists v :: v in s'.users && v.id == Some(a.userID)
    {
      var v :| v in s.users && v.id == Some(a.userID);
      assert v in s'.users;
    }
    forall p | p in s'.pivots
      ensures exists b :: b in s'.acronyms && b.id == Some(p.acronymID)
    {
      var b :| b in s.acronyms && b.id == Some(p.acronymID);
    }
  }

  /** The seed keeps the constraints when no user is called "Admin" yet, as on the fresh database it runs on. */
  lemma SeedAdminKeepsValid(s: Store, hash: Hasher)
    requires Valid(s)
    requires forall v :: v in s.users ==> v.username != "Admin"
    ensures Valid(SeedAdmin(s, hash))
  {
    InsertUserKeepsValid(s, AdminUser(hash));
  }

  lemma InsertAcronymKeepsValid(s: Store, a: Acronym)
    requires Valid(s)
    requires exists u :: u in s.users && u.id == Some(a.userID)
    ensures Valid(InsertAcronym(s, a).0)
  {
    var (s', saved) := InsertAcronym(s, a);
    assert forall b :: b in s'.acronyms <==> b in s.acronyms || b == saved;
    forall p | p in s'.pivots
      ensures exists b :: b in s'.acronyms && b.id == Some(p.acronymID)
    {
      var b :| b in s.acronyms && b.id == Some(p.acronymID);
      assert b in s'.acronyms;
    }
  }

  lemma InsertCategoryKeepsValid(s: Store, c: Category)
    requires Valid(s)
    ensures Valid(InsertCategory(s, c).0)
  {
    var (s', saved) := InsertCategory(s, c);
    assert forall d :: d in s'.categories <==> d in s.categories || d == saved;
    forall p | p in s'.pivots
      ensures exists b :: b in s'.acronyms && b.id == Some(p.acronymID)
    {
      var b :| b in s.acronyms && b.id == Some(p.acronymID);
    }
  }

  lemma InsertPivotKeepsValid(s: Store, p: Pivot)
    requires Valid(s)
    requires exists a :: a in s.acronyms && a.id == Some(p.acronymID)
    ensures Valid(InsertPivot(s, p))
  {
    var s' := InsertPivot(s, p);
    assert forall q :: q in s'.pivots <==> q in s.pivots || q == p.(id := Some(s.nextId));
    forall q | q in s'.pivots
      ensures exists b :: b in s'.acronyms && b.id == Some(q.acronymID)
    {
      if q in s.pivots {
        var b :| b in s.acronyms && b.id == Some(q.acronymID);
      } else {
        var b :| b in s.acronyms && b.id == Some(p.acronymID);
      }
    }
  }

  lemma AttachKeepsValid(s: Store, a: Acronym, c: Category)
    requires Valid(s) && a in s.acronyms && c.id.Some?
    ensures Attach(s, a, c).Success? && Valid(Attach(s, a, c).value)
  {
    InsertPivotKeepsValid(s, NewPivot(a, c).value);
  }

  lemma DetachIdsKeepsValid(s: Store, aid: Id, cid: Id)
    requires Valid(s)
    ensures Valid(DetachIds(s, aid, cid))
  {
    var s' := DetachIds(s, aid, cid);
    forall p | p in s'.pivots
      ensures exists b :: b in s'.acronyms && b.id == Some(p.acronymID)
    {
      var b :| b in s.acronyms && b.id == Some(p.acronymID);
    }
  }

  /** Overwriting an acronym keeps its id and gives it an owner that exists. */
  lemma UpdateAcronymKeepsValid(s: Store, prev: Acronym, a: Acronym)
    requires Valid(s) && prev in s.acronyms && a.id == prev.id
    requires exists u :: u in s.users && u.id == Some(a.userID)
    ensures Valid(UpdateAcronym(s, a))
  {
    var s' := UpdateAcronym(s, a);
    forall b | b in s'.acronyms
      ensures (b in s.acronyms && b.id != a.id) || b == a
    {
      var i :| 0 <= i < |s'.acronyms| && s'.acronyms[i] == b;
    }
    forall b | b in s.acronyms
      ensures b.id == a.id || b in s'.acronyms
    {
      var i :| 0 <= i < |s.acronyms| && s.acronyms[i] == b;
      assert s'.acronyms[i] == (if b.id == a.id then a else b);
    }
    assert a in s'.acronyms by {
      var i :| 0 <= i < |s.acronyms| && s.acronyms[i] == prev;
      assert s'.acronyms[i] == a;
    }
    forall p | p in s'.pivots
      ensures exists b :: b in s'.acronyms && b.id == Some(p.acronymID)
    {
      var b :| b in s.acronyms && b.id == Some(p.acronymID);
      if b.id == a.id {
        assert a in s'.acronyms;
      } else {
        assert b in s'.acronyms;
      }
    }
    forall b | b in s'.acronyms
      ensures exists u :: u in s'.users && u.id == Some(b.userID)
    {
      if b != a {
        assert b in s.acronyms;
      }
    }
  }

  /** Without a foreign key on `categoryID`, removing a category row breaks no constraint. */
  lemma DeleteCategoryKeepsValid(s: Store, k: Id)
    requires Valid(s)
    ensures Valid(DeleteCategory(s, k))
  {
    var s' := DeleteCategory(s, k);
    forall p | p in s'.pivots
      ensures exists b :: b in s'.acronyms && b.id == Some(p.acronymID)
    {
      var b :| b in s.acronyms && b.id == Some(p.acronymID);
    }
  }

  /** The cascade is what keeps the pivot-to-acronym constraint after a delete. */
  lemma DeleteAcronymKeepsValid(s: Store, k: Id)
    requires Valid(s)
    ensures Valid(DeleteAcronym(s, k))
  {
    var s' := DeleteAcronym(s, k);
    forall p | p in s'.pivots
      ensures exists b :: b in s'.acronyms && b.id == Some(p.acronymID)
    {
      var b :| b in s.acronyms && b.id == Some(p.acronymID);
      assert b in s'.acronyms;
    }
  }
}

=== FILE: ordering.dfy ===
/**
 `sort(\.short, .descending)`: the database orders text by comparing code
 points left to right (SQLite's default binary collation over UTF-8, which
 agrees with code-point order), a shorter prefix coming first.
 */
module Ordering {
  import opened AcronymModel

  /** `a` sorts at or before `b`. */
  predicate TextLe(a: string, b: string)
  {
    |a| == 0 || (|b| > 0 && (a[0] < b[0] || (a[0] == b[0] && TextLe(a[1..], b[1..]))))
  }

  lemma {:induction false} TextLeTotal(a: string, b: string)
    ensures TextLe(a, b) || TextLe(b, a)
  {
    if |a| > 0 && |b| > 0 && a[0] == b[0] {
      TextLeTotal(a[1..], b[1..]);
    }
  }

  lemma {:induction false} TextLeTransitive(a: string, b: string, c: string)
    requires TextLe(a, b) && TextLe(b, c)
    ensures TextLe(a, c)
  {
    if |a| > 0 && a[0] == b[0] && b[0] == c[0] {
      TextLeTransitive(a[1..], b[1..], c[1..]);
    }
  }

  lemma {:induction false} TextLeAntisymmetric(a: string, b: string)
    requires TextLe(a, b) && TextLe(b, a)
    ensures a == b
  {
    if |a| > 0 {
      TextLeAntisymmetric(a[1..], b[1..]);
      assert a == [a[0]] + a[1..] && b == [b[0]] + b[1..];
    }
  }

  /** Each acronym's `short` sorts at or after the `short` of every acronym behind it. */
  ghost predicate DescendingByShort(xs: seq<Acronym>)
  {
    forall i, j :: 0 <= i < j < |xs| ==> TextLe(xs[j].short, xs[i].short)
  }

  /** Every `short` in `xs` sorts at or before `bound`. */
  ghost predicate AllAtMost(xs: seq<Acronym>, bound: string)
  {
    forall j :: 0 <= j < |xs| ==> TextLe(xs[j].short, bound)
  }

  lemma PrependKeepsDescending(x: Acronym, xs: seq<Acronym>)
    requires DescendingByShort(xs) && AllAtMost(xs, x.short)
    ensures DescendingByShort([x] + xs)
  {
    assert forall j :: 0 < j < |[x] + xs| ==> ([x] + xs)[j] == xs[j - 1];
  }

  /** A bound on the elements carries over to a sequence with the same elements. */
  lemma AllAtMostPermutation(xs: seq<Acronym>, ys: seq<Acronym>, bound: string)
    requires multiset(xs) == multiset(ys) && AllAtMost(xs, bound)
    ensures AllAtMost(ys, bound)
  {
    forall j | 0 <= j < |ys| ensures TextLe(ys[j].short, bound) {
      assert ys[j] in multiset(xs);
      var m :| 0 <= m < |xs| && xs[m] == ys[j];
    }
  }

  /** `x` may go in front when the head of `xs` does not sort after it. */
  lemma InsertInFront(x: Acronym, xs: seq<Acronym>)
    requires DescendingByShort(xs) && |xs| > 0 && TextLe(xs[0].short, x.short)
    ensures DescendingByShort([x] + xs)
  {
    forall j | 0 <= j < |xs| ensures TextLe(xs[j].short, x.short) {
      if j > 0 { TextLeTransitive(xs[j].short, xs[0].short, x.short); }
    }
    PrependKeepsDescending(x, xs);
  }

  /** Otherwise the head of `xs` stays in front of the rest with `x` inserted. */
  lemma InsertBehindHead(x: Acronym, xs: seq<Acronym>, rest: seq<Acronym>)
    requires DescendingByShort(xs) && |xs| > 0 && !TextLe(xs[0].short, x.short)
    requires multiset(rest) == multiset(xs[1..]) + multiset{x} && DescendingByShort(rest)
    ensures DescendingByShort([xs[0]] + rest)
    ensures multiset([xs[0]] + rest) == multiset(xs) + multiset{x}
  {
    assert xs == [xs[0]] + xs[1..];
    TextLeTotal(xs[0].short, x.short);
    assert AllAtMost(xs[1..] + [x], xs[0].short) by {
      assert forall j :: 0 <= j < |xs[1..]| ==> (xs[1..] + [x])[j] == xs[j + 1];
    }
    AllAtMostPermutation(xs[1..] + [x], rest, xs[0].short);
    PrependKeepsDescending(xs[0], rest);
  }

  lemma TailDescending(xs: seq<Acronym>)
    requires DescendingByShort(xs) && |xs| > 0
    ensures DescendingByShort(xs[1..])
  {
    assert forall j :: 0 <= j < |xs[1..]| ==> xs[1..][j] == xs[j + 1];
  }

  /** Put `x` in front of the first element whose `short` does not sort after its own. */
  function Insert(x: Acronym, xs: seq<Acronym>): (r: seq<Acronym>)
    requires DescendingByShort(xs)
    ensures multiset(r) == multiset(xs) + multiset{x}
    ensures DescendingByShort(r)
  {
    if |xs| == 0 then [x]
    else if TextLe(xs[0].short, x.short) then
      InsertInFront(x, xs);
      [x] + xs
    else
      TailDescending(xs);
      var rest := Insert(x, xs[1..]);
      InsertBehindHead(x, xs, rest);
      [xs[0]] + rest
  }

  /** The sorted listing: the same acronyms, ordered by `short` from last to first. */
  function SortByShortDescending(xs: seq<Acronym>): (r: seq<Acronym>)
    ensures multiset(r) == multiset(xs)
    ensures DescendingByShort(r)
  {
    if |xs| == 0 then []
    else
      assert xs == [xs[0]] + xs[1..];
      Insert(xs[0], SortByShortDescending(xs[1..]))
  }
}

=== FILE: pivot.dfy ===
/**
 The `AcronymCategoryPivot` model: one edge of the many-to-many relation
 between acronyms (the left side) and categories (the right side).
 */
module PivotModel {
  import opened Common
  import opened AcronymModel
  import opened CategoryModel

  /** A pivot row: `acronymID` is the left key, `categoryID` the right key. */
  datatype Pivot = Pivot(id: Option<Id>, acronymID: Id, categoryID: Id)

  /** `AcronymCategoryPivot.init(_:_:)`: both models must already be saved,
      since `requireID` throws on a model without an id. */
  function NewPivot(a: Acronym, c: Category): (r: Result<Pivot>)
    ensures r.Success? <==> a.id.Some? && c.id.Some?
    ensures r.Success? ==> r.value.id.None? && r.value.acronymID == a.id.value && r.value.categoryID == c.id.value
    ensures r.Failure? ==> r.status == InternalServerError
  {
    if c.id.None? || a.id.None? then Failure(InternalServerError)
    else Success(Pivot(None, a.id.value, c.id.value))
  }

  /** Whether some pivot links acronym `aid` to category `cid`. */
  predicate HasEdge(pivots: seq<Pivot>, aid: Id, cid: Id)
  {
    exists p :: p in pivots && p.acronymID == aid && p.categoryID == cid
  }
}

=== FILE: registration.dfy ===
/**
 `RegisterData.validations()`: the four rules a registration form must pass
 before an account is created.
 */
module Registration {
  import Seqs

  /** The fields of the registration form. */
  datatype RegisterData = RegisterData(name: string, username: string, password: string, confirmPassword: string)

  /** One rule of the validation set, in the order the rules are added. The username rule
      `.alphanumeric && .count(3...)` is two rules here, as both halves are checked. */
  datatype Rule = NameIsAscii | UsernameIsAlphanumeric | UsernameLongEnough | PasswordLongEnough | PasswordsMatch

  const AllRules: seq<Rule> := [NameIsAscii, UsernameIsAlphanumeric, UsernameLongEnough, PasswordLongEnough, PasswordsMatch]

  lemma AllRulesListed()
    ensures forall rule :: rule in AllRules
  {
    forall rule ensures rule in AllRules {
      match rule
      case NameIsAscii => assert AllRules[0] == rule;
      case UsernameIsAlphanumeric => assert AllRules[1] == rule;
      case UsernameLongEnough => assert AllRules[2] == rule;
      case PasswordLongEnough => assert AllRules[3] == rule;
      case PasswordsMatch => assert AllRules[4] == rule;
    }
  }

  /** `.ascii`: every character is in the range 0 to 127. */
  predicate IsAscii(t: string)
  {
    forall i :: 0 <= i < |t| ==> t[i] as int < 128
  }

  predicate IsAlphanumericChar(ch: char)
  {
    ('a' <= ch <= 'z') || ('A' <= ch <= 'Z') || ('0' <= ch <= '9')
  }

  /** `.alphanumeric`: every character is a letter or a digit. */
  predicate IsAlphanumeric(t: string)
  {
    forall i :: 0 <= i < |t| ==> IsAlphanumericChar(t[i])
  }

  /** Whether the form passes one rule. */
  predicate Passes(d: RegisterData, rule: Rule)
  {
    match rule
    case NameIsAscii => IsAscii(d.name)
    case UsernameIsAlphanumeric => IsAlphanumeric(d.username)
    case UsernameLongEnough => |d.username| >= 3
    case PasswordLongEnough => |d.password| >= 8
    case PasswordsMatch => d.password == d.confirmPassword
  }

  /** The registration rules as one condition. */
  predicate IsValid(d: RegisterData)
  {
    && IsAscii(d.name)
    && IsAlphanumeric(d.username) && |d.username| >= 3
    && |d.password| >= 8
    && d.password == d.confirmPassword
  }

  /** `data.validate()`: the rules the form breaks, in the order they were added. */
  function Failures(d: RegisterData): (r: seq<Rule>)
    ensures forall rule :: rule in r <==> !Passes(d, rule)
  {
    AllRulesListed();
    Seqs.Filter(AllRules, (rule: Rule) => !Passes(d, rule))
  }

  /** A form is accepted exactly when it breaks no rule, that is when all four conditions hold. */
  lemma AcceptedIffValid(d: RegisterData)
    ensures Failures(d) == [] <==> IsValid(d)
  {
    var r := Failures(d);
    if r == [] {
      assert forall rule :: Passes(d, rule);
      assert Passes(d, NameIsAscii) && Passes(d, UsernameIsAlphanumeric) && Passes(d, UsernameLongEnough);
      assert Passes(d, PasswordLongEnough) && Passes(d, PasswordsMatch);
    } else {
      assert r[0] in r;
    }
  }
}

=== FILE: seqs.dfy ===
/**
 The two query shapes the ORM provides over a table: the first row matching a
 filter (`query.filter(...).first()`) and all rows matching it
 (`query.filter(...).all()`), both in table order.
 */
module Seqs {
  import opened Common

  /** The first element of `xs` that satisfies `p`. */
  function First<T(==)>(xs: seq<T>, p: T -> bool): (r: Option<T>)
    ensures r.None? <==> forall x :: x in xs ==> !p(x)
    ensures r.Some? ==> exists i :: 0 <= i < |xs| && xs[i] == r.value && p(xs[i]) &&
                                    forall j :: 0 <= j < i ==> !p(xs[j])
  {
    if |xs| == 0 then None
    else if p(xs[0]) then Some(xs[0])
    else
      var r := First(xs[1..], p);
      if r.Some? then
        var i :| 0 <= i < |xs[1..]| && xs[1..][i] == r.value && p(xs[1..][i]) &&
                 forall j :: 0 <= j < i ==> !p(xs[1..][j]);
        assert xs[i + 1] == r.value;
        assert forall j :: 1 <= j < i + 1 ==> xs[j] == xs[1..][j - 1];
        r
      else
        assert forall x :: x in xs ==> x == xs[0] || x in xs[1..];
        r
  }

  /** The elements of `xs` that satisfy `p`, in their original order. */
  function Filter<T(==)>(xs: seq<T>, p: T -> bool): (r: seq<T>)
    ensures |r| <= |xs|
    ensures forall x :: x in r ==> x in xs && p(x)
    ensures forall x :: x in xs && p(x) ==> x in r
  {
    if |xs| == 0 then []
    else
      var rest := Filter(xs[1..], p);
      assert forall x :: x in xs ==> x == xs[0] || x in xs[1..];
      if p(xs[0]) then [xs[0]] + rest else rest
  }
}

=== FILE: token.dfy ===
/**
 The bearer credential issued at API login. Its Swift definition is not part
 of this model; the record follows the login handler's use of it: a random
 token string and the id of the user it authenticates.
 */
module TokenModel {
  import opened Common
  import opened UserModel

  datatype Token = Token(token: string, userID: Id)

  /** `Token.generate(for:)`, with the random string (base64 of 16 random bytes)
      passed in; the user must be saved, as `requireID` throws otherwise. */
  function GenerateToken(u: User, random: string): (r: Result<Token>)
    ensures r.Success? <==> u.id.Some?
    ensures r.Success? ==> r.value.token == random && r.value.userID == u.id.value
    ensures r.Failure? ==> r.status == InternalServerError
  {
    if u.id.None? then Failure(InternalServerError) else Success(Token(random, u.id.value))
  }
}

=== FILE: user.dfy ===
/**
 The `User` model: an account with a unique username and a hashed password,
 and the `User.Public` projection handed to untrusted callers.
 */
module UserModel {
  import opened Common

  /** A user row. `password` holds the BCrypt digest of the password, never the password. */
  datatype User = User(id: Option<Id>, name: string, username: string, password: string)

  /** `User.Public`: the user without its password. */
  datatype Public = Public(id: Option<Id>, name: string, username: string)

  /** `User.init`: a user that is not saved yet, so it has no id. */
  function NewUser(name: string, username: string, password: string): (u: User)
    ensures u.id.None?
    ensures u.name == name && u.username == username && u.password == password
  {
    User(None, name, username, password)
  }

  /** `convertToPublic`: copies id, name and username. */
  function ConvertToPublic(u: User): (p: Public)
    ensures p.id == u.id && p.name == u.name && p.username == u.username
  {
    Public(u.id, u.name, u.username)
  }

  /** The projection forgets the password and nothing else: two users project
      to the same public value exactly when they differ at most in their password. */
  lemma PublicForgetsOnlyPassword(u: User, v: User)
    ensures ConvertToPublic(u) == ConvertToPublic(v) <==> u.(password := v.password) == v
  {
  }

  /** BCrypt, which is foreign code here: a hasher is passed to every operation that hashes. */
  type Hasher = string -> string

  /** `BCryptDigest.verify`: the digest was produced from this password. */
  predicate Verify(hash: Hasher, digest: string, password: string)
  {
    digest == hash(password)
  }

  /** The seed account of the `AdminUser` migration, before it is saved. */
  function AdminUser(hash: Hasher): (u: User)
    ensures u.id.None? && u.name == "Admin" && u.username == "Admin"
    ensures u.password == hash("password") && Verify(hash, u.password, "password")
  {
    NewUser("Admin", "Admin", hash("password"))
  }
}

=== FILE: users_controller.dfy ===
/**
 The JSON API under `/api/users`: listing and fetching users (always through
 the public projection), the acronyms a user owns, creating a user (behind
 token authentication) and issuing a bearer token (behind HTTP basic auth).
 */
module UsersController {
  import opened Common
  import opened UserModel
  import opened AcronymModel
  import opened TokenModel
  import opened Database
  import opened Authentication

  /** The decoded body of a create-user request, with the password in plaintext. */
  datatype UserData = UserData(name: string, username: string, password: string)

  /** The credentials of an HTTP basic `Authorization` header. */
  datatype BasicCredentials = BasicCredentials(username: string, password: string)

  /** `createUserHandler`: hash the password, save the user, answer with its public view.
      A username that is already taken violates the unique constraint and the save fails. */
  function CreateUser(s: Store, bearer: Option<string>, hash: Hasher, data: UserData): (r: Reply<Public>)
    ensures TokenUser(s, bearer).None? ==> r == Reply(s, Failure(Unauthorized))
    ensures r.result.Success? <==>
              TokenUser(s, bearer).Some? && forall u :: u in s.users ==> u.username != data.username
    ensures r.result.Failure? ==> r.store == s
    ensures r.result.Success? ==>
              && |r.store.users| == |s.users| + 1 && r.store.users[..|s.users|] == s.users
              && var saved := r.store.users[|s.users|];
              && saved.id == Some(s.nextId)
              && saved.name == data.name && saved.username == data.username
              && saved.password == hash(data.password)
              && r.result.value == ConvertToPublic(saved)
              && r.store == s.(users := r.store.users, nextId := s.nextId + 1)
  {
    match TokenUser(s, bearer)
    case None => Reply(s, Failure(Unauthorized))
    case Some(_) =>
      if UserByName(s, data.username).Some? then Reply(s, Failure(InternalServerError))
      else
        var (s', saved) := InsertUser(s, NewUser(data.name, data.username, hash(data.password)));
        assert s'.users[..|s.users|] == s.users;
        Reply(s', Success(ConvertToPublic(saved)))
  }

  /** `getAllUserHandler`: the public view of every user, in table order. */
  function GetAllUsers(s: Store): (r: seq<Public>)
    ensures |r| == |s.users|
    ensures forall i :: 0 <= i < |r| ==> r[i] == ConvertToPublic(s.users[i])
  {
    seq(|s.users|, i requires 0 <= i < |s.users| => ConvertToPublic(s.users[i]))
  }

  /** `getUserHandler`: the public view of the addressed user. */
  function GetUser(s: Store, k: Id): (r: Result<Public>)
    ensures r.Failure? <==> forall u :: u in s.users ==> u.id != Some(k)
    ensures r.Failure? ==> r.status == NotFound
    ensures r.Success? ==> exists u :: u in s.users && u.id == Some(k) && r.value == ConvertToPublic(u)
  {
    match UserById(s, k)
    case None => Failure(NotFound)
    case Some(u) => Success(ConvertToPublic(u))
  }

  /** `getAcronymsHandler`: the acronyms the addressed user owns. */
  function GetAcronyms(s: Store, k: Id): (r: Result<seq<Acronym>>)
    ensures r.Failure? <==> forall u :: u in s.users ==> u.id != Some(k)
    ensures r.Failure? ==> r.status == NotFound
    ensures r.Success? ==> forall a :: a in r.value <==> a in s.acronyms && a.userID == k
  {
    if UserById(s, k).None? then Failure(NotFound) else Success(ChildrenOf(s, k))
  }

  /** The user HTTP basic auth resolves the credentials to, if any: a request without an
      `Authorization` header authenticates nobody. */
  function BasicUser(s: Store, hash: Hasher, credentials: Option<BasicCredentials>): (r: Option<User>)
    ensures credentials.None? ==> r.None?
    ensures r.Some? ==> r.value in s.users && r.value.username == credentials.value.username &&
                        Verify(hash, r.value.password, credentials.value.password)
    ensures credentials.Some? && UsernamesUnique(s) ==>
              (r.Some? <==> exists u :: u in s.users && u.username == credentials.value.username &&
                                        Verify(hash, u.password, credentials.value.password))
  {
    if credentials.None? then None
    else PasswordUser(s, hash, credentials.value.username, credentials.value.password)
  }

  /** `loginHandler`: issue and save a token for the user the credentials authenticate;
      `random` stands for the generated token string. */
  function Login(s: Store, hash: Hasher, credentials: Option<BasicCredentials>, random: string): (r: Reply<Token>)
    ensures BasicUser(s, hash, credentials).None? ==> r == Reply(s, Failure(Unauthorized))
    ensures r.result.Failure? ==> r.store == s
    ensures UsersKeyed(s) ==> (r.result.Success? <==> BasicUser(s, hash, credentials).Some?)
    ensures r.result.Success? ==>
              && r.result.value.token == random
              && Some(r.result.value.userID) == BasicUser(s, hash, credentials).value.id
              && r.store == s.(tokens := s.tokens + [r.result.value])
  {
    match BasicUser(s, hash, credentials)
    case None => Reply(s, Failure(Unauthorized))
    case Some(u) =>
      match GenerateToken(u, random)
      case Failure(e) => Reply(s, Failure(e))
      case Success(t) => Reply(s.(tokens := s.tokens + [t]), Success(t))
  }

  // ---------------------------------------------------------------------------
  // Round trips and preserved constraints

  /** Creating a user keeps the constraints: the handler saves only under a free username. */
  lemma CreateUserKeepsValid(s: Store, bearer: Option<string>, hash: Hasher, data: UserData)
    requires Valid(s)
    ensures Valid(CreateUser(s, bearer, hash, data).store)
  {
    if CreateUser(s, bearer, hash, data).result.Success? {
      InsertUserKeepsValid(s, NewUser(data.name, data.username, hash(data.password)));
    }
  }

  /** A created user can be fetched back as its public view, and the stored digest
      verifies the submitted password. */
  lemma CreateUserThenGet(s: Store, bearer: Option<string>, hash: Hasher, data: UserData)
    requires Valid(s)
    ensures var r := CreateUser(s, bearer, hash, data);
            r.result.Success? ==>
              GetUser(r.store, s.nextId) == r.result &&
              Verify(hash, r.store.users[|s.users|].password, data.password)
  {
    var r := CreateUser(s, bearer, hash, data);
    if r.result.Success? {
      InsertUserKeepsValid(s, NewUser(data.name, data.username, hash(data.password)));
      UserByIdFindsRow(r.store, r.store.users[|s.users|]);
    }
  }

  /** The token a login issues, used as a bearer credential, authenticates the user who logged in
      (the random token string is taken to differ from every earlier one). */
  lemma LoginThenBearer(s: Store, hash: Hasher, credentials: Option<BasicCredentials>, random: string)
    requires Valid(s)
    requires forall t :: t in s.tokens ==> t.token != random
    ensures var r := Login(s, hash, credentials, random);
            && Valid(r.store)
            && (r.result.Success? ==> TokenUser(r.store, Some(random)) == BasicUser(s, hash, credentials))
  {
    var r := Login(s, hash, credentials, random);
    if r.result.Success? {
      var u := BasicUser(s, hash, credentials).value;
      FreshTokenAuthenticatesOwner(s, r.result.value);
      UserByIdFindsRow(s, u);
    }
  }

  /** A password that does not verify gets no token and leaves the store as it was. */
  lemma WrongPasswordGetsNoToken(s: Store, hash: Hasher, username: string, password: string, random: string)
    requires forall u :: u in s.users && u.username == username ==> !Verify(hash, u.password, password)
    ensures Login(s, hash, Some(BasicCredentials(username, password)), random) == Reply(s, Failure(Unauthorized))
  {
  }
}

=== FILE: website_controller.dfy ===
/**
 The browser-facing routes. Every route reads the session; the create, edit
 and delete routes sit behind `RedirectMiddleware`, which answers a request
 without a logged-in session user with a redirect to the login page before
 the handler runs. Pages are rendered by templates; here a handler's answer
 is the redirect it issues or the form it shows.
 */
module WebsiteController {
  import opened Common
  import opened UserModel
  import opened AcronymModel
  import opened CategoryModel
  import opened PivotModel
  import opened Database
  import opened Authentication
  import opened Registration
  import opened CategoryReconciliation

  /** The create and edit form body. Both the category list and the form token may be absent. */
  datatype CreateAcronymData = CreateAcronymData(
    short: string,
    long: string,
    categories: Option<seq<string>>,
    csrfToken: Option<string>)

  datatype LoginPostData = LoginPostData(username: string, password: string)

  /** Where a redirect points: `/`, `/login`, `/login?error`, `/register?message=...`
      (carrying the broken rules) and `/acronyms/<id>`. */
  datatype Location = Home | LoginPage | LoginError | RegisterPage(failures: seq<Rule>) | AcronymPage(id: Id)

  datatype Page = Redirect(to: Location) | AcronymForm(csrfToken: string)

  /** What a web handler leaves behind: the database, the browser's session, and its answer. */
  datatype WebReply = WebReply(store: Store, session: Session, result: Result<Page>)

  /** `data.categories ?? []`, as a set of names. */
  function Submitted(data: CreateAcronymData): (r: set<string>)
    ensures data.categories.None? ==> r == {}
    ensures data.categories.Some? ==> forall n :: n in r <==> n in data.categories.value
  {
    if data.categories.None? then {} else set n | n in data.categories.value
  }

  function SubmittedNames(data: CreateAcronymData): seq<string>
  {
    if data.categories.None? then [] else data.categories.value
  }

  /** The answer `RedirectMiddleware` gives a request without a session user. */
  function ToLogin(s: Store, session: Session): WebReply
  {
    WebReply(s, session, Success(Redirect(LoginPage)))
  }

  // ---------------------------------------------------------------------------
  // Creating an acronym: the form and its single-use token

  /** `createAcronymForWebHandler`: draw a token, keep it in the session's `CSRF_TOKEN` slot
      and show it in the form. `random` is the token `CryptoRandom` yields. */
  function CreateAcronymForm(s: Store, session: Session, random: string): (r: WebReply)
    ensures SessionUser(s, session).None? ==> r == ToLogin(s, session)
    ensures SessionUser(s, session).Some? ==>
              && r.store == s && r.session.userID == session.userID
              && r.session.csrfToken == Some(random) && r.result == Success(AcronymForm(random))
  {
    if SessionUser(s, session).None? then ToLogin(s, session)
    else WebReply(s, session.(csrfToken := Some(random)), Success(AcronymForm(random)))
  }

  /** `createAcronymPostHandler`: the slot is emptied whatever happens next; the post is
      refused unless it carries a token equal to the one the slot held. A matching post
      saves the acronym, tags it with the submitted names and redirects to its page. */
  function CreateAcronymPost(s: Store, session: Session, data: CreateAcronymData): (r: WebReply)
    ensures SessionUser(s, session).None? ==> r == ToLogin(s, session)
    ensures SessionUser(s, session).Some? ==> r.session == session.(csrfToken := None)
    ensures SessionUser(s, session).Some? && !(data.csrfToken.Some? && session.csrfToken == data.csrfToken) ==>
              r.store == s && r.result == Failure(BadRequest)
    ensures r.result.Success? && SessionUser(s, session).Some? ==>
              && data.csrfToken.Some? && session.csrfToken == data.csrfToken
              && r.result.value == Redirect(AcronymPage(s.nextId))
              && r.store.acronyms == s.acronyms + [Acronym(Some(s.nextId), data.short, data.long, session.userID.value)]
              && r.store.users == s.users && r.store.tokens == s.tokens
              && |r.store.pivots| >= |s.pivots| && r.store.pivots[..|s.pivots|] == s.pivots
              && (forall p: Pivot :: p.acronymID != s.nextId ==> (p in r.store.pivots <==> p in s.pivots))
              && (forall c :: c in s.categories ==> c in r.store.categories)
              && (forall c :: c in r.store.categories && c !in s.categories ==> c.name in Submitted(data))
  {
    match SessionUser(s, session)
    case None => ToLogin(s, session)
    case Some(u) =>
      var cleared := session.(csrfToken := None);
      if !(data.csrfToken.Some? && session.csrfToken == data.csrfToken) then WebReply(s, cleared, Failure(BadRequest))
      else
        var (s1, saved) := InsertAcronym(s, NewAcronym(data.short, data.long, session.userID.value));
        match AddCategories(s1, saved, SubmittedNames(data))
        case Failure(e) => WebReply(s1, cleared, Failure(e))
        case Success(s2) =>
          AppendedRowsOf(s.pivots, s2.pivots, s.nextId);
          WebReply(s2, cleared, Success(Redirect(AcronymPage(saved.id.value))))
  }

  /** Rows appended after `before`, all of acronym `aid`, leave every other acronym's rows as they were. */
  lemma AppendedRowsOf(before: seq<Pivot>, after: seq<Pivot>, aid: Id)
    requires |after| >= |before| && after[..|before|] == before
    requires forall i :: |before| <= i < |after| ==> Some(aid) == Some(after[i].acronymID)
    ensures forall p: Pivot :: p.acronymID != aid ==> (p in after <==> p in before)
  {
    forall p: Pivot | p.acronymID != aid && p in after ensures p in before {
      var i :| 0 <= i < |after| && after[i] == p;
      assert i < |before| && before[i] == p;
    }
    forall p: Pivot | p in before ensures p in after {
      var i :| 0 <= i < |before| && before[i] == p;
      assert after[i] == p;
    }
  }

  /** A freshly saved acronym has no tags yet: every pivot row points at an older acronym. */
  lemma NewAcronymUntagged(s: Store, a: Acronym)
    requires Valid(s)
    ensures NamesOf(InsertAcronym(s, a).0, s.nextId) == {}
  {
    var s1 := InsertAcronym(s, a).0;
    forall x ensures x !in NamesOf(s1, s.nextId) {
      NameIn(s1, s.nextId, x);
      forall c | c in s1.categories && c.id.Some?
        ensures !HasEdge(s1.pivots, s.nextId, c.id.value)
      {
        forall p | p in s1.pivots ensures p.acronymID != s.nextId {
          var b :| b in s.acronyms && b.id == Some(p.acronymID);
        }
      }
    }
  }

  /** A post with the right token, by a logged-in user on a valid database, saves the acronym
      tagged with exactly the submitted names and keeps the constraints. */
  lemma CreateAcronymPostTags(s: Store, session: Session, data: CreateAcronymData)
    requires Valid(s) && SessionUser(s, session).Some?
    requires data.csrfToken.Some? && session.csrfToken == data.csrfToken
    ensures CreateAcronymPost(s, session, data).result == Success(Redirect(AcronymPage(s.nextId)))
    ensures Valid(CreateAcronymPost(s, session, data).store)
    ensures NamesOf(CreateAcronymPost(s, session, data).store, s.nextId) == Submitted(data)
  {
    var u := SessionUser(s, session).value;
    var (s1, saved) := InsertAcronym(s, NewAcronym(data.short, data.long, session.userID.value));
    InsertAcronymKeepsValid(s, NewAcronym(data.short, data.long, session.userID.value));
    NewAcronymUntagged(s, NewAcronym(data.short, data.long, session.userID.value));
    assert saved in s1.acronyms;
    AddCategoriesTags(s1, saved, SubmittedNames(data));
  }

  /** The token the form hands out is accepted once. */
  lemma FormThenSubmit(s: Store, session: Session, random: string, data: CreateAcronymData)
    requires Valid(s) && SessionUser(s, session).Some? && data.csrfToken == Some(random)
    ensures var form := CreateAcronymForm(s, session, random);
            CreateAcronymPost(form.store, form.session, data).result.Success?
  {
    var form := CreateAcronymForm(s, session, random);
    CreateAcronymPostTags(form.store, form.session, data);
  }

  /** After one post, whatever its outcome, a second post is refused: the slot is empty. */
  lemma TokenIsSingleUse(s: Store, session: Session, data: CreateAcronymData, again: CreateAcronymData)
    requires SessionUser(s, session).Some?
    ensures var first := CreateAcronymPost(s, session, data);
            var second := CreateAcronymPost(first.store, first.session, again);
            second.result == Failure(BadRequest) && second.store == first.store
  {
    var first := CreateAcronymPost(s, session, data);
    assert first.store.users == s.users;
  }

  // ---------------------------------------------------------------------------
  // Editing and deleting

  /** `editAcronymPostHandler`: overwrite short and long, make the editor the owner, then
      reconcile the tags: names submitted but not yet attached are attached, and for each
      attached name no longer submitted the first attached category with that name is
      detached. The attach and detach steps run one after the other. The submitted names are
      always attached afterwards; the old names not submitted are all gone when no two tagged
      categories share a name, and otherwise a duplicate can stay. */
  method EditAcronymPost(s: Store, session: Session, k: Id, data: CreateAcronymData) returns (r: WebReply)
    requires Valid(s)
    ensures SessionUser(s, session).None? ==> r == ToLogin(s, session)
    ensures SessionUser(s, session).Some? && AcronymById(s, k).None? ==> r == WebReply(s, session, Failure(NotFound))
    ensures SessionUser(s, session).Some? && AcronymById(s, k).Some? ==>
              && r.session == session
              && r.result == Success(Redirect(AcronymPage(k)))
              && Valid(r.store)
              && AcronymById(r.store, k) == Some(Acronym(Some(k), data.short, data.long, session.userID.value))
              && Submitted(data) <= NamesOf(r.store, k) <= NamesOf(s, k) + Submitted(data)
              && (TagNamesDistinct(s, k) ==> NamesOf(r.store, k) == Submitted(data))
              && EditFrame(s, r.store, k, data)
              && KeepsResubmitted(s, r.store, k, data)
              && AttachesOnly(s, r.store, Submitted(data) - NamesOf(s, k))
  {
    var user := SessionUser(s, session);
    if user.None? {
      return ToLogin(s, session);
    }
    var found := AcronymById(s, k);
    if found.None? {
      return WebReply(s, session, Failure(NotFound));
    }
    var updated, s1 := SaveEdited(s, session, k, data, found.value);
    var s2 := ReconcileAsWritten(s, s1, k, data, updated);
    AcronymByIdFindsRow(s2, updated);
    EditFrameHolds(s, s1, s2, k, data, updated);
    return WebReply(s2, session, Success(Redirect(AcronymPage(k))));
  }

  /** The edit handler with the intended detach step, which removes every attached category
      carrying a dropped name: afterwards the tags are exactly the submitted names. */
  method EditAcronymPostIntended(s: Store, session: Session, k: Id, data: CreateAcronymData) returns (r: WebReply)
    requires Valid(s)
    ensures SessionUser(s, session).None? ==> r == ToLogin(s, session)
    ensures SessionUser(s, session).Some? && AcronymById(s, k).None? ==> r == WebReply(s, session, Failure(NotFound))
    ensures SessionUser(s, session).Some? && AcronymById(s, k).Some? ==>
              && r.session == session
              && r.result == Success(Redirect(AcronymPage(k)))
              && Valid(r.store)
              && AcronymById(r.store, k) == Some(Acronym(Some(k), data.short, data.long, session.userID.value))
              && NamesOf(r.store, k) == Submitted(data)
              && EditFrame(s, r.store, k, data)
              && KeepsResubmitted(s, r.store, k, data)
              && AttachesOnly(s, r.store, Submitted(data) - NamesOf(s, k))
  {
    var user := SessionUser(s, session);
    if user.None? {
      return ToLogin(s, session);
    }
    var found := AcronymById(s, k);
    if found.None? {
      return WebReply(s, session, Failure(NotFound));
    }
    var updated, s1 := SaveEdited(s, session, k, data, found.value);
    var s2 := Reconcile(s, s1, k, data, updated);
    AcronymByIdFindsRow(s2, updated);
    EditFrameHolds(s, s1, s2, k, data, updated);
    return WebReply(s2, session, Success(Redirect(AcronymPage(k))));
  }

  /** The pivot rows of `k` that link a tagged category whose name is submitted again are
      left in place: neither edit handler detaches a name that is kept. */
  ghost predicate KeepsResubmitted(s: Store, r: Store, k: Id, data: CreateAcronymData)
  {
    forall p ::
      p in s.pivots && p.acronymID == k &&
      (exists c :: Tagged(s, k, c) && c.id == Some(p.categoryID) && c.name in Submitted(data))
      ==> p in r.pivots
  }

  /** What an edit of acronym `k` leaves alone: users and tokens, every other acronym row,
      every pivot row of another acronym, and every category (a new one carries a submitted name). */
  ghost predicate EditFrame(s: Store, r: Store, k: Id, data: CreateAcronymData)
  {
    && r.users == s.users && r.tokens == s.tokens
    && |r.acronyms| == |s.acronyms|
    && (forall i :: 0 <= i < |s.acronyms| && s.acronyms[i].id != Some(k) ==> r.acronyms[i] == s.acronyms[i])
    && (forall p: Pivot :: p.acronymID != k ==> (p in r.pivots <==> p in s.pivots))
    && (forall c :: c in s.categories ==> c in r.categories)
    && (forall c :: c in r.categories && c !in s.categories ==> c.name in Submitted(data))
  }

  /** The first step both edit handlers share: overwrite the row's fields and save it. */
  method SaveEdited(s: Store, session: Session, k: Id, data: CreateAcronymData, found: Acronym)
    returns (updated: Acronym, s1: Store)
    requires Valid(s) && SessionUser(s, session).Some? && AcronymById(s, k) == Some(found)
    ensures updated == Acronym(Some(k), data.short, data.long, session.userID.value)
    ensures Valid(s1) && updated in s1.acronyms
    ensures s1 == UpdateAcronym(s, updated)
  {
    updated := found.(short := data.short, long := data.long, userID := session.userID.value);
    UpdateAcronymKeepsValid(s, found, updated);
    s1 := UpdateAcronym(s, updated);
    assert updated in s1.acronyms by {
      var i :| 0 <= i < |s.acronyms| && s.acronyms[i] == found;
      assert s1.acronyms[i] == updated;
    }
  }

  /** The tag step as written: read the acronym's categories back, plan the changes from
      their names and the submitted ones, and apply the plan with the first-only detach. */
  method ReconcileAsWritten(s: Store, s1: Store, k: Id, data: CreateAcronymData, updated: Acronym)
    returns (s2: Store)
    requires Valid(s1) && updated in s1.acronyms && updated.id == Some(k)
    requires s1.categories == s.categories && s1.pivots == s.pivots
    ensures Valid(s2)
    ensures s2.users == s1.users && s2.acronyms == s1.acronyms && s2.tokens == s1.tokens
    ensures forall p: Pivot :: p.acronymID != k ==> (p in s2.pivots <==> p in s1.pivots)
    ensures forall c :: c in s1.categories ==> c in s2.categories
    ensures forall c :: c in s2.categories && c !in s1.categories ==> c.name in Submitted(data)
    ensures Submitted(data) <= NamesOf(s2, k) <= NamesOf(s, k) + Submitted(data)
    ensures TagNamesDistinct(s, k) ==> NamesOf(s2, k) == Submitted(data)
    ensures KeepsResubmitted(s, s2, k, data)
    ensures AttachesOnly(s, s2, Submitted(data) - NamesOf(s, k))
  {
    SameTables(s, s1, k);
    var existing := CategoriesOf(s1, k);
    DistinctTagsListed(s1, k, existing);
    var plan := ReconciliationPlan(NamesOf(s1, k), Submitted(data));
    s2 := ApplyPlanAsWritten(s1, updated, existing, plan.0, plan.1);
    ResubmittedKept(s, s1, s2, k, data, plan.1);
    PlanBounds(NamesOf(s, k), Submitted(data), NamesOf(s2, k));
    PlanExactWhen(TagNamesDistinct(s, k), NamesOf(s, k), Submitted(data), NamesOf(s2, k));
  }

  /** The tag step with the intended detach. */
  method Reconcile(s: Store, s1: Store, k: Id, data: CreateAcronymData, updated: Acronym)
    returns (s2: Store)
    requires Valid(s1) && updated in s1.acronyms && updated.id == Some(k)
    requires s1.categories == s.categories && s1.pivots == s.pivots
    ensures Valid(s2)
    ensures s2.users == s1.users && s2.acronyms == s1.acronyms && s2.tokens == s1.tokens
    ensures forall p: Pivot :: p.acronymID != k ==> (p in s2.pivots <==> p in s1.pivots)
    ensures forall c :: c in s1.categories ==> c in s2.categories
    ensures forall c :: c in s2.categories && c !in s1.categories ==> c.name in Submitted(data)
    ensures NamesOf(s2, k) == Submitted(data)
    ensures KeepsResubmitted(s, s2, k, data)
    ensures AttachesOnly(s, s2, Submitted(data) - NamesOf(s, k))
  {
    SameTables(s, s1, k);
    var existing := CategoriesOf(s1, k);
    var plan := ReconciliationPlan(NamesOf(s1, k), Submitted(data));
    s2 := ApplyPlan(s1, updated, existing, plan.0, plan.1);
    ResubmittedKept(s, s1, s2, k, data, plan.1);
    PlanExact(NamesOf(s, k), Submitted(data), NamesOf(s2, k));
  }

  /** The tags of `k` depend only on the category and pivot tables. */
  lemma SameTables(s: Store, s1: Store, k: Id)
    requires s1.categories == s.categories && s1.pivots == s.pivots
    ensures CategoriesOf(s1, k) == CategoriesOf(s, k)
    ensures NamesOf(s1, k) == NamesOf(s, k)
    ensures TagNamesDistinct(s1, k) == TagNamesDistinct(s, k)
  {
    assert forall c :: Tagged(s1, k, c) == Tagged(s, k, c);
  }

  /** A plan drops only names that are not submitted, so the rows of resubmitted tags stay. */
  lemma ResubmittedKept(s: Store, s1: Store, s2: Store, k: Id, data: CreateAcronymData, toRemove: set<string>)
    requires s1.categories == s.categories && s1.pivots == s.pivots
    requires toRemove == NamesOf(s1, k) - Submitted(data)
    requires forall p :: p in s1.pivots && (exists c :: c in s1.categories && c.id == Some(p.categoryID) && c.name !in toRemove) ==>
               p in s2.pivots
    ensures KeepsResubmitted(s, s2, k, data)
  {
  }

  /** The listed categories are the tagged ones, so distinct tag names make them distinct. */
  lemma DistinctTagsListed(s: Store, k: Id, existing: seq<Category>)
    requires forall c :: c in existing <==> Tagged(s, k, c)
    ensures TagNamesDistinct(s, k) ==> DistinctNames(existing)
  {
  }

  /** Applying the plan of `before` against `submitted` leaves at least the submitted names,
      and at most those and the earlier ones. */
  lemma PlanBounds(before: set<string>, submitted: set<string>, after: set<string>)
    requires (before - (before - submitted)) + (submitted - before) <= after <= before + (submitted - before)
    ensures submitted <= after <= before + submitted
  {
  }

  /** Applied exactly, the plan leaves the submitted names. */
  lemma PlanExact(before: set<string>, submitted: set<string>, after: set<string>)
    requires after == (before - (before - submitted)) + (submitted - before)
    ensures after == submitted
  {
  }

  lemma PlanExactWhen(exact: bool, before: set<string>, submitted: set<string>, after: set<string>)
    requires exact ==> after == (before - (before - submitted)) + (submitted - before)
    ensures exact ==> after == submitted
  {
  }

  /** The row update and the tag step together keep the edit frame. */
  lemma EditFrameHolds(s: Store, s1: Store, s2: Store, k: Id, data: CreateAcronymData, updated: Acronym)
    requires s1 == UpdateAcronym(s, updated) && updated.id == Some(k)
    requires s2.users == s1.users && s2.acronyms == s1.acronyms && s2.tokens == s1.tokens
    requires forall p: Pivot :: p.acronymID != k ==> (p in s2.pivots <==> p in s1.pivots)
    requires forall c :: c in s1.categories ==> c in s2.categories
    requires forall c :: c in s2.categories && c !in s1.categories ==> c.name in Submitted(data)
    ensures EditFrame(s, s2, k, data)
  {
  }

  /** `deleteAcronymForWebHandler`: delete the addressed acronym and go home. */
  function DeleteAcronymForWeb(s: Store, session: Session, k: Id): (r: WebReply)
    ensures SessionUser(s, session).None? ==> r == ToLogin(s, session)
    ensures SessionUser(s, session).Some? && AcronymById(s, k).None? ==> r == WebReply(s, session, Failure(NotFound))
    ensures SessionUser(s, session).Some? && AcronymById(s, k).Some? ==>
              && r.session == session && r.result == Success(Redirect(Home))
              && AcronymById(r.store, k).None?
              && (forall a :: a in r.store.acronyms <==> a in s.acronyms && a.id != Some(k))
              && (forall p :: p in r.store.pivots <==> p in s.pivots && p.acronymID != k)
              && r.store == s.(acronyms := r.store.acronyms, pivots := r.store.pivots)
  {
    if SessionUser(s, session).None? then ToLogin(s, session)
    else if AcronymById(s, k).None? then WebReply(s, session, Failure(NotFound))
    else WebReply(DeleteAcronym(s, k), session, Success(Redirect(Home)))
  }

  lemma DeleteAcronymForWebKeepsValid(s: Store, session: Session, k: Id)
    requires Valid(s)
    ensures Valid(DeleteAcronymForWeb(s, session, k).store)
  {
    DeleteAcronymKeepsValid(s, k);
  }

  // ---------------------------------------------------------------------------
  // Logging in and out

  /** `loginPostHandler`: a verified user is remembered in the session; otherwise the browser
      is sent back to the login page with the error flag. */
  function LoginPost(s: Store, session: Session, hash: Hasher, data: LoginPostData): (r: WebReply)
    ensures r.store == s
    ensures PasswordUser(s, hash, data.username, data.password).None? ==>
              r.session == session && r.result == Success(Redirect(LoginError))
    ensures PasswordUser(s, hash, data.username, data.password).Some? ==>
              && r.session == session.(userID := PasswordUser(s, hash, data.username, data.password).value.id)
              && r.result == Success(Redirect(Home))
  {
    match PasswordUser(s, hash, data.username, data.password)
    case None => WebReply(s, session, Success(Redirect(LoginError)))
    case Some(u) => WebReply(s, session.(userID := u.id), Success(Redirect(Home)))
  }

  /** After a successful login the session authenticates the verified user, and the login
      succeeds exactly when some stored user has that username and password. */
  lemma LoginThenSessionUser(s: Store, session: Session, hash: Hasher, data: LoginPostData)
    requires UsersKeyed(s) && UsernamesUnique(s)
    ensures LoginPost(s, session, hash, data).result == Success(Redirect(Home)) <==>
              exists u :: u in s.users && u.username == data.username && Verify(hash, u.password, data.password)
    ensures LoginPost(s, session, hash, data).result == Success(Redirect(Home)) ==>
              var r := LoginPost(s, session, hash, data);
              SessionUser(r.store, r.session) == PasswordUser(s, hash, data.username, data.password)
  {
    var found := PasswordUser(s, hash, data.username, data.password);
    if found.Some? {
      UserByIdFindsRow(s, found.value);
    }
  }

  /** `logoutHandler`: forget the session user and go home. */
  function Logout(s: Store, session: Session): (r: WebReply)
    ensures r.store == s && r.session.csrfToken == session.csrfToken
    ensures r.session.userID.None? && r.result == Success(Redirect(Home))
  {
    WebReply(s, session.(userID := None), Success(Redirect(Home)))
  }

  /** After logging out no protected page is reachable with the same session. */
  lemma LogoutEndsSession(s: Store, session: Session, k: Id, data: CreateAcronymData)
    ensures var out := Logout(s, session);
            && SessionUser(out.store, out.session).None?
            && DeleteAcronymForWeb(out.store, out.session, k) == ToLogin(out.store, out.session)
            && CreateAcronymPost(out.store, out.session, data) == ToLogin(out.store, out.session)
  {
  }

  // ---------------------------------------------------------------------------
  // Registering

  /** `registerPostHandler`: a form that breaks a rule is sent back to the register page with
      the broken rules; otherwise the user is saved with the hashed password and logged in.
      A taken username violates the unique constraint and the save fails. */
  function RegisterPost(s: Store, session: Session, hash: Hasher, data: RegisterData): (r: WebReply)
    ensures !IsValid(data) ==>
              r == WebReply(s, session, Success(Redirect(RegisterPage(Failures(data))))) && Failures(data) != []
    ensures IsValid(data) && UserByName(s, data.username).Some? ==>
              r == WebReply(s, session, Failure(InternalServerError))
    ensures r.result == Success(Redirect(Home)) <==> IsValid(data) && UserByName(s, data.username).None?
    ensures r.result == Success(Redirect(Home)) ==>
              && |r.store.users| == |s.users| + 1 && r.store.users[..|s.users|] == s.users
              && var saved := r.store.users[|s.users|];
              && saved == User(Some(s.nextId), data.name, data.username, hash(data.password))
              && r.session == session.(userID := saved.id)
              && r.store == s.(users := r.store.users, nextId := s.nextId + 1)
  {
    AcceptedIffValid(data);
    var failures := Failures(data);
    if failures != [] then WebReply(s, session, Success(Redirect(RegisterPage(failures))))
    else if UserByName(s, data.username).Some? then WebReply(s, session, Failure(InternalServerError))
    else
      var (s', saved) := InsertUser(s, NewUser(data.name, data.username, hash(data.password)));
      assert s'.users[..|s.users|] == s.users;
      WebReply(s', session.(userID := saved.id), Success(Redirect(Home)))
  }

  /** A successful registration keeps the constraints, logs the new user in, and the same
      username and password log in from a fresh browser. */
  lemma RegisterThenLogin(s: Store, session: Session, hash: Hasher, data: RegisterData)
    requires Valid(s)
    requires RegisterPost(s, session, hash, data).result == Success(Redirect(Home))
    ensures var r := RegisterPost(s, session, hash, data);
            && Valid(r.store)
            && SessionUser(r.store, r.session).Some?
            && SessionUser(r.store, r.session).value.username == data.username
            && LoginPost(r.store, NewSession, hash, LoginPostData(data.username, data.password)).result
                 == Success(Redirect(Home))
  {
    var r := RegisterPost(s, session, hash, data);
    var user := NewUser(data.name, data.username, hash(data.password));
    InsertUserKeepsValid(s, user);
    var saved := r.store.users[|s.users|];
    assert saved in r.store.users;
    UserByIdFindsRow(r.store, saved);
    LoginThenSessionUser(r.store, NewSession, hash, LoginPostData(data.username, data.password));
  }
}
